=== FILE: README.md ===
# Data-access adapter and email relay of the club membership site

This Dafny project models the core of a small membership site. The site's pages
reach their back end only through `window.ForgeAPI`. That object comes in two
interchangeable implementations:

- `js/forge-api.js` talks to a Forge REST back end.
- `js/supabase-api.js` talks to a PostgREST (Supabase) back end. The server swaps it
  in when it serves a page.

Each implementation has the same parts:

- **Session store.** localStorage holds the serialised session under one key and
  the bare access token under a second key.
- **Header builder.** It adds the Bearer token, the API key and the content type.
- **Query builder.** It turns `{select, filters, order, limit}` into an ordered
  list of `key=op.value` parameters. It appends `?` only when that list is not empty.
- **Four database verbs.** Each returns a `{data, error}` envelope.
- **Storage upload.** It builds the object URL and derives the error message
  through a fixed chain of fallbacks.

The model also covers the server side in `index.js`: the `/api/send-email`
handler's validation and replies, the lazily created Resend client, and the
guard of `injectSupabaseConfig`.

How the model is built:

- **JavaScript values.** `JsValues` models the JavaScript value semantics the code
  relies on: truthiness, `String(v)`, `v.key` versus `v?.key`, `v[0]`,
  `new Error(...)`, and wrapping a thrown value in an `Error`.
- **Platform.** JSON parsing and serialisation, `encodeURIComponent` and the
  form encoding of `URLSearchParams` are parameters (`Platform`).
- **fetch.** What fetch produces is an input: a response (status, content-length,
  body text) or a transport failure.
- **Verbs.** Each verb is a function from the configuration, the localStorage
  contents, its arguments and that input. It returns the request it handed to
  fetch and how its promise settled: resolved with an envelope, or rejected.
- **Stateful code stays imperative.** `storeSession` is a method on a
  `LocalStorage` object. The parameter builders are loops proved equal to
  declarative definitions. The recipient check is a `for` loop with an early
  exit. `getResend` updates the cache field of a `Relay` object.

Files:

- `js_values.dfy`: JavaScript value semantics.
- `session_store.dfy`: the session store.
- `http.dfy`: requests, responses and envelopes.
- `query_builder.dfy`: the parameter builders and URL serialisation, shared by both adapters.
- `supabase_api.dfy`: the PostgREST adapter.
- `forge_api.dfy`: the Forge adapter.
- `email_relay.dfy`: the `index.js` parts.

## Behaviour of the code worth knowing

- **Corrupt stored session.** `getStoredSession` lets the SyntaxError from
  `JSON.parse` escape (js/supabase-api.js:23-26, js/forge-api.js:15-18). The
  request helpers read the session first, and every database verb awaits its
  helper inside a `try`, so a verb resolves with `{data: null, error: SyntaxError}`
  without calling fetch (js/supabase-api.js:43, 117-122; js/forge-api.js:35,
  94-99). The Forge upload reads the session before its `try`, so its promise
  rejects (js/forge-api.js:172). The PostgREST upload reads it inside its `try`
  and resolves with an error envelope (js/supabase-api.js:193).
- **Null filter value in `select`.** `typeof null === 'object'`, so reading
  `value.operator` throws a TypeError. This happens before the `try`, so the
  promise rejects instead of returning an envelope (js/supabase-api.js:95,
  js/forge-api.js:72).
- **`delete` on success.** It returns `{data: null, error: null}`: both fields are
  null (js/supabase-api.js:182, js/forge-api.js:159).
- **Non-JSON error body.** The thrown message is "Request failed", with no status
  (js/supabase-api.js:68, js/forge-api.js:51). The status appears only when the
  body parses and has no usable `message` (or `hint`).
- **Empty success body on the Forge back end.** `response.json()` fails on it, so
  the call reports a SyntaxError. Only the PostgREST adapter maps empty bodies to null.
- **`storeSession` with a session that has no `accessToken`.** It leaves any
  previously stored token key in place.
- **Empty recipient array.** `to: []` is truthy, so it passes the required-field
  check. It passes the address check with no addresses and is sent with an empty
  recipient list.

## Model

| member | source | states |
|---|---|---|
| JsValues.Index0 | js/forge-api.js:110 | `v[0]` throws exactly on null and undefined and yields the first element of a non-empty array |
| JsValues.AsError | js/supabase-api.js:261 | the caught value is always reported as an Error, and an Error is passed through unchanged |
| SessionStore.StoredSession | js/supabase-api.js:23-26 | an absent key or an empty string reads as null; any other stored text yields the value JSON.parse gives it, or, when it is not JSON, a SyntaxError that escapes |
| SessionStore.AfterStore | js/supabase-api.js:29-39 | storing changes no key but the two session keys; a truthy session is written; the token key is written exactly when a token exists and otherwise keeps its old state; a falsy session removes both keys |
| SessionStore.StoreSession | js/forge-api.js:21-31 | the storage after the call is exactly the specified result of storing into the storage before it |
| SessionStore.ClearSession | js/supabase-api.js:278 | clearing removes exactly the session key and the token key and leaves every other item |
| SessionStore.StoredSessionNullIff | js/supabase-api.js:23-26 | the stored session reads as null if and only if the key is absent, empty, or holds JSON null |
| SessionStore.StoreThenGet | js/forge-api.js:15-31 | a truthy session that survives JSON serialisation reads back unchanged after being stored |
| SessionStore.ClearThenGet | js/forge-api.js:216 | after clearing, the session reads as null and no token key remains |
| QueryBuilder.BuildSelectParams | js/supabase-api.js:84-110 | the loop that appends select, each filter, order and limit produces exactly the declared parameter list, or the TypeError of the first null filter |
| QueryBuilder.BuildEqParams | js/forge-api.js:122-126 | the update/delete loop produces exactly one equality parameter per filter entry, in order |
| QueryBuilder.FilterParamsPrefixFailure | js/forge-api.js:71-77 | once a prefix of the filter entries throws, the whole `forEach` throws the same error |
| QueryBuilder.FilterParamsAt | js/supabase-api.js:93-100 | the filters succeed if and only if no value is null; on failure the error is reading `operator` of null; on success parameter i is filter i with its operator text |
| QueryBuilder.SelectParamsOrder | js/supabase-api.js:84-110 | the parameters are select (only if truthy), then every filter in entry order, then order, then limit (each only if truthy, so a limit of 0 is omitted), and the count matches |
| QueryBuilder.FilterTextCases | js/supabase-api.js:95-99 | the definition of the filter text restated case by case: a plain object with a truthy `operator` gives `<operator>.<value>`; anything else gives `eq.<value>` |
| QueryBuilder.EqParamsAt | js/supabase-api.js:145-149 | update and delete map filter i to parameter i named by its key with value `eq.<value>` |
| QueryBuilder.EqParamsAgreeWithSelect | js/supabase-api.js:146-148 | on filters without operator objects or nulls, the update/delete builder and the select builder agree |
| QueryBuilder.SerializeEmptyIff | js/supabase-api.js:112-114 | the query string is empty exactly when there are no parameters, so `?` is appended exactly when there is at least one |
| QueryBuilder.QueryPieces | js/forge-api.js:90-92 | splitting the serialised query on `&` yields each encoded `name=value`, in order |
| QueryBuilder.QueryInjective | js/forge-api.js:90-92 | with an injective, separator-free encoding, the query string determines the parameter list |
| QueryBuilder.QueryCarriesFilter | js/forge-api.js:69-78 | filter i of a successful select is the query piece right after the optional select parameter |
| SupabaseApi.RequestHeaders | js/supabase-api.js:44-60 | the defaults are JSON content type, the anon key as apikey and `return=representation`, each overridable by the caller; Authorization is always set, to the session token, else the service key if set, else the anon key |
| SupabaseApi.FailureThrown | js/supabase-api.js:67-70 | a non-ok response throws the body's `message`, else its `hint`, else `Request failed: <status>`; a non-JSON body gives "Request failed"; a JSON null body gives a TypeError |
| SupabaseApi.SuccessValue | js/supabase-api.js:73-78 | status 204, `content-length: 0` and an empty body give null; any other body yields its parsed value, or a SyntaxError when it is not JSON |
| SupabaseApi.Request | js/supabase-api.js:42-79 | a corrupt session throws before anything is sent; otherwise the request goes to `<url>/rest/v1<endpoint>` with the built headers, and the result is the transport failure, FailureThrown of a non-ok response, or SuccessValue of an ok one |
| SupabaseApi.Select | js/supabase-api.js:83-123 | the promise rejects exactly when a filter value is null; otherwise a GET with the built headers goes to the table path with the query whenever the stored session is readable; the envelope is `{data: data \|\| [], error: null}` for the awaited data, or null data with the thrown error, so successful data is never falsy |
| SupabaseApi.AsArray | js/supabase-api.js:126 | insert always transmits an array: the input array itself, or the single record wrapped |
| SupabaseApi.Unwrap | js/supabase-api.js:133 | array input gives the data unchanged; a single record gives `data[0]` whenever the data and its `[0]` are both truthy (an array's first element, a string's first character, an object's property "0"), and otherwise the data |
| SupabaseApi.Insert | js/supabase-api.js:125-139 | a POST with the built headers carries the records as an array whenever the stored session is readable; the envelope is the unwrapped awaited data with no error, or null data with the thrown error |
| SupabaseApi.Update | js/supabase-api.js:141-164 | a PATCH with the built headers and the serialised updates goes to the table with one equality parameter per filter whenever the stored session is readable; success gives the awaited data unchanged with no error, failure gives null data and the thrown error |
| SupabaseApi.Delete | js/supabase-api.js:166-186 | a DELETE with the built headers goes to the table with equality parameters whenever the stored session is readable; success gives `{data: null, error: null}`, failure null data and the thrown error |
| SupabaseApi.UploadHeaders | js/supabase-api.js:193-206 | an upload sends exactly Authorization, apikey, Content-Type and x-upsert: the session token or else the anon key (never the service key), the anon key as apikey, the file's type or `application/octet-stream`, and `x-upsert: true` |
| SupabaseApi.UploadFailureMessage | js/supabase-api.js:214-227 | the message is the body's `message`, else its `error`, else "Upload failed"; an empty body gives "Upload failed with status N"; a non-JSON or null body gives the raw text |
| SupabaseApi.UploadFailed | js/supabase-api.js:257-263 | an upload failure has no data and an Error |
| SupabaseApi.UploadSettle | js/supabase-api.js:197-263 | a transport failure, a non-ok response (with UploadFailureMessage) and a URL without `http` each give an Error and no data; otherwise data is present exactly when the parsed body is not null, with the public URL, the caller's name as key and a path |
| SupabaseApi.Upload | js/supabase-api.js:191-264 | upload never rejects; a corrupt session gives an error envelope and sends nothing; otherwise the file is POSTed to `/storage/v1/object/<bucket>/<encoded name>` with UploadHeaders and the envelope is UploadSettle's; exactly one of data and error is present; error is always an Error; on success the URL equals getPublicUrl for the caller's name, contains `http`, and `key` is the file name |
| SupabaseApi.SelectEmptyIsArray | js/supabase-api.js:117-118 | a successful select whose result is null or empty yields `data = []` and no error |
| SupabaseApi.InsertMirrorsShape | js/supabase-api.js:132-135 | array input returns whatever the response holds, unchanged; a single record returns the first row when there is a truthy one |
| SupabaseApi.InsertSingleWithoutRow | js/supabase-api.js:133 | a single record whose response is falsy or an empty array gets the raw data back |
| SupabaseApi.FailedResponseIsError | js/supabase-api.js:67-70 | a non-ok response with `{message: "X"}` makes update and delete resolve with null data and an Error whose message is "X" |
| SupabaseApi.NoRowsMatchedIsNotAnError | js/supabase-api.js:155-185 | an update or delete whose filters match no rows succeeds with no error |
| SupabaseApi.PublicUrlInjective | js/supabase-api.js:266-268 | with an injective encodeURIComponent, distinct file names in a bucket have distinct public URLs |
| SupabaseApi.UploadPathPrecedence | js/supabase-api.js:230-256 | the returned path is the parsed result's `Key`, else its `path`, else the caller's file name; an empty or non-JSON success body leaves the result `{}`, so the path is the file name |
| SupabaseApi.HttpBaseUrlPassesCheck | js/supabase-api.js:244-247 | a base URL containing `http` can never trigger the invalid-URL error |
| ForgeApi.RequestHeaders | js/forge-api.js:36-43 | the JSON content type is a default the caller may override; Authorization is set to the session token only when one exists, and otherwise a caller-supplied Authorization survives |
| ForgeApi.FailureThrown | js/forge-api.js:50-53 | a non-ok response throws the body's `message`, else `Request failed: <status>`, for every JSON body that is not null (objects, arrays, strings and numbers alike); a non-JSON body gives "Request failed"; a JSON null body gives a TypeError |
| ForgeApi.Request | js/forge-api.js:34-56 | a corrupt session throws before anything is sent; otherwise the request goes to `<base><endpoint>` with the built headers, and the result is the transport failure, FailureThrown of a non-ok response, or the parsed body of an ok one (a SyntaxError when it is not JSON, the empty body included) |
| ForgeApi.Select | js/forge-api.js:60-100 | the promise rejects exactly when a filter value is null; otherwise a GET with the built headers goes to `/api/database/<table>` with the query whenever the stored session is readable; successful data is exactly the awaited value, with no `[]` default, and failure gives null data and the thrown error |
| ForgeApi.Unwrap | js/forge-api.js:110 | array input gives the data as is; a single record gives `data[0]` when it is truthy and otherwise the data itself, whatever its shape (object, string, array with a falsy or missing first element); null or undefined data throws a TypeError |
| ForgeApi.Insert | js/forge-api.js:102-116 | a POST with the built headers carries the records as an array whenever the stored session is readable; the envelope is the unwrapped data, or null data with the error thrown by the request or by `data[0]` |
| ForgeApi.Update | js/forge-api.js:118-141 | a PATCH with the built headers and the serialised updates goes to the table with equality parameters whenever the stored session is readable; success gives the awaited data with no error, failure null data and the thrown error |
| ForgeApi.Delete | js/forge-api.js:143-163 | a DELETE with the built headers goes to the table with equality parameters whenever the stored session is readable; success gives `{data: null, error: null}`, failure null data and the thrown error |
| ForgeApi.UploadHeaders | js/forge-api.js:172-176 | an upload sends Authorization only, and only when a session token exists |
| ForgeApi.UploadSettle | js/forge-api.js:178-205 | exactly one of data and error is present; a transport failure is reported as thrown and a non-ok response never gives data; an ok response gives data exactly when its body parses to a non-null value, and then the key is the body's `key` when truthy, else the caller's file name, and the URL is the object URL of that key |
| ForgeApi.Upload | js/forge-api.js:168-206 | a corrupt session rejects the promise with a SyntaxError before anything is sent; otherwise the file is POSTed as multipart field `file` to the object URL of the caller's name, with UploadHeaders, and the envelope is UploadSettle's |
| ForgeApi.InsertNullResponseIsTypeError | js/forge-api.js:104-115 | a single record whose response is JSON null resolves with null data and the TypeError from reading `[0]` of null |
| ForgeApi.InsertMirrorsShape | js/forge-api.js:109-112 | array input returns whatever the response holds, unchanged; a single record returns the first row when there is a truthy one |
| ForgeApi.UploadKeyChoice | js/forge-api.js:193-201 | the returned key is the server's `key` when truthy; otherwise it is the caller's file name, and the URL is that name's object URL |
| ForgeApi.UploadFailureMessage | js/forge-api.js:188-191 | a failed upload reports the body's `message` when truthy, else "Upload failed", for a non-JSON body and for every non-null JSON body (objects, arrays, strings, numbers); a JSON null body reports the TypeError of reading `message` of null |
| ForgeApi.UploadUrlMatchesRequest | js/forge-api.js:180-194 | with an injective encoding, the returned URL equals the upload URL if and only if the key is the caller's file name |
| EmailRelay.EmailShapedIff | index.js:210 | the address pattern holds if and only if there is no white space, exactly one `@` and not first, and a `.` after it with characters on both sides |
| EmailRelay.FirstInvalid | index.js:212-220 | the index found is the first recipient failing the pattern, and all earlier ones pass; none is found only when every recipient passes |
| EmailRelay.FindInvalid | index.js:212-220 | the loop with early return reports exactly the first failing recipient, or none |
| EmailRelay.Precheck | index.js:174-198 | the handler gets past the early checks if and only if `to` and `subject` are truthy and both RESEND_API_KEY and FROM_EMAIL are set |
| EmailRelay.ProviderErrorMessage | index.js:241-248 | the provider error's message is its `message`, else the error itself if it is a string, else `<name>: Unknown error`, else "Failed to send email" |
| EmailRelay.Outcome | index.js:236-275 | the reply is 200 exactly when the provider resolved without error, and then it carries `success: true`, the recipient list and the provider's id; otherwise it is 500 with `success: false`; when the send threw, the error text is the Error's message, or "Internal server error" when that is empty |
| EmailRelay.Compose | index.js:228-234 | the message goes from FROM_EMAIL to the normalised recipients with the request's subject; html falls back to text and then to "", and text falls back to html and then to "" |
| EmailRelay.Handle | index.js:169-275 | something is sent if and only if every check passed, a client exists and every recipient is valid, and what is sent is the composed message |
| EmailRelay.Acquired | index.js:142-166 | getResend yields nothing without a key or a loaded class, the cached instance when there is one, and otherwise the newly constructed one |
| EmailRelay.CachedClientIsStable | index.js:153-165 | once getResend has returned an instance, every later call returns that same instance |
| EmailRelay.Relay.constructor | index.js:122-124 | the server starts with its configuration and an empty client cache |
| EmailRelay.Relay.GetResend | index.js:142-166 | returns the specified instance, caches it once created, and never caches without a key and a loaded class |
| EmailRelay.Relay.SendEmail | index.js:169-275 | early refusals leave the cache untouched; otherwise the reply is the specified one for the instance getResend yields, which stays cached |
| EmailRelay.MissingFieldsComeFirst | index.js:174-180 | a missing `to` or `subject` gives 400 "Missing required fields: to, subject" and nothing is sent, whatever the configuration |
| EmailRelay.ConfigurationChecksInOrder | index.js:183-207 | the missing API key is reported first, then the missing sender, then the missing client, each with 500 and its own message |
| EmailRelay.FirstInvalidRecipientReported | index.js:210-220 | the first failing address is reported as `Invalid email address: <it>` with 400, and nothing is sent |
| EmailRelay.AcceptedRequestIsSent | index.js:228-265 | a request that passes every check is sent through the client to all its recipients and answered 200 exactly when the provider reports no error |
| EmailRelay.EmptyRecipientListIsSent | index.js:174-220 | `to: []` passes every check and is sent with no recipients |
| EmailRelay.SingleAddressAsList | index.js:211 | a single truthy address and the one-element list holding it get the same checks, the same message and the same reply |
| EmailRelay.DetailsOnlyInDevelopment | index.js:250-254 | a provider error gives 500 with the derived message, and `details` is present, holding the error, exactly in development |
| EmailRelay.InjectSupabaseConfig | index.js:37-57 | an empty URL or anon key leaves the page unchanged; otherwise the forge-api.js tags are rewritten with the config script |
| EmailRelay.ConfigScriptCarriesValues | index.js:42-47 | the injected script assigns the URL and the anon key verbatim |

## Left out

- fetch, `Response.text()`/`json()`, FormData, header-name case-insensitivity: a response is an input value, a multipart body is a tagged file, headers are an exact-key map.
- JSON.parse and JSON.stringify, `encodeURIComponent` and the form encoding of URLSearchParams: parameters of the model; injectivity and separator-freedom are stated as hypotheses where a lemma needs them.
- A failure of `response.text()` in the PostgREST upload is indistinguishable from an empty body (the code maps it to `''`), so it is not a separate input.
- Configuration resolution from `window` globals and the environment (js/supabase-api.js:4-14, js/forge-api.js:4-8, index.js:33-34, 122-124): the configuration is a parameter holding the strings the templates render. An unset PostgREST URL or anon key is `undefined` there and renders as the text `undefined`; an unset Forge base URL falls back to the hard-coded default; an unset service key or server setting is "".
- JavaScript strings are sequences of UTF-16 code units, while the model's strings are sequences of Unicode scalar values: lone surrogates cannot be represented, so neither can the URIError `encodeURIComponent` throws on them (caught by the uploads' `try` blocks, js/supabase-api.js:198 and js/forge-api.js:180, and rejecting the promise of `getPublicUrl`, js/supabase-api.js:267). `encodeUriComponent` is a total function of the model's strings.
- ADMIN_CREDENTIALS: a constant the adapters export, with no behaviour to model.
- Numbers are integers; floating point and its string rendering are not modelled.
- The order `Object.entries` gives integer-like keys: filters are an ordered list of entries.
- The exact text of TypeError messages follows V8; other engines word them differently.
- Thrown Error objects are a name and a message; stacks and causes are not modelled.
- Concurrency between in-flight calls, promise scheduling and localStorage quota errors: each call is one step against the stored state.
- The HTML rewrite with regular expressions in `injectSupabaseConfig` (index.js:50-54): a parameter; only the guard and the script are modelled.
- The Resend module detection (index.js:100-120): reduced to whether the class was found; the SDK's `send` is an input result.
- EmailRelay.Outcome: does not model the `details` stack trace of the catch branch in development (index.js:273); the modelled reply omits it, as in production.
- EmailRelay.Outcome: does not model an SDK that throws a non-Error value or resolves to null; the SDK either resolves with `{data, error}` or throws an Error.
- The JSON serialisation of a provider error in `details`: the error value is placed in the reply as is.
- Express routing, CORS, static files, HTML page handlers, the health route, console logging and start-up warnings (index.js:1-94, 126-140, 370-385): framework and I/O.
- The `/api/test-email` endpoint (index.js:278-362): a debugging endpoint outside this model.
- js/forge-client.js and js/forge-config.js: wrappers over an SDK whose code is not part of this model.
- js/email-service.js and the UI scripts (admin, member, members, activities, applications, navigation, auth, password reset): page wiring and templates, not part of this model; reset tokens depend on randomness and the clock.

=== FILE: email_relay.dfy ===
/** The server side of the site (index.js): the `/api/send-email` handler that
    validates a request and relays it to the Resend provider, the lazily created
    provider client, and the guard of the HTML config injection. The provider is
    abstract: the client is an opaque handle and the result of sending is an input. */
module EmailRelay {
  import opened JsValues

  /** RESEND_API_KEY and FROM_EMAIL ("" when unset) and NODE_ENV == 'development'. */
  datatype RelayConfig = RelayConfig(apiKey: string, fromEmail: string, development: bool)

  /** An instance of the Resend SDK class, identified by an opaque handle. */
  datatype Client = Client(handle: nat)

  /** The HTTP status and JSON body the handler answers with. */
  datatype Reply = Reply(status: int, body: Value)

  /** The message handed to `emails.send`. */
  datatype Outgoing = Outgoing(client: Client, from: string, to: seq<Value>, subject: Value, html: Value, text: Value)

  /** What `emails.send` did: resolved with `{data, error}`, or threw an Error. */
  datatype SendOutcome = Replied(data: Value, error: Value) | Threw(err: JsError)

  /** One handled request: the reply, and the message sent (none when a check refused it). */
  datatype Handled = Handled(reply: Reply, sent: Option<Outgoing>)

  const MissingFieldsMessage := "Missing required fields: to, subject"
  const NoApiKeyMessage := "Email service is not configured. Please set RESEND_API_KEY environment variable."
  const NoFromEmailMessage := "Email service is not configured. Please set FROM_EMAIL environment variable."
  const NoClientMessage := "Email service not available. Please check your RESEND_API_KEY configuration."
  const InvalidAddressPrefix := "Invalid email address: "

  // ---------------------------------------------------------------------------
  // The address shape /^[^\s@]+@[^\s@]+\.[^\s@]+$/

  /** JavaScript's `\s`: the Unicode white space and line terminators. */
  predicate IsSpace(c: char)
  {
    c == '\t' || c == '\n' || c == '\U{000B}' || c == '\U{000C}' || c == '\r' || c == ' ' ||
    c == '\U{00A0}' || c == '\U{1680}' || ('\U{2000}' <= c <= '\U{200A}') ||
    c == '\U{2028}' || c == '\U{2029}' || c == '\U{202F}' || c == '\U{205F}' ||
    c == '\U{3000}' || c == '\U{FEFF}'
  }

  /** `[^\s@]+` matches the whole of t. */
  predicate Segment(t: string)
  {
    |t| > 0 && forall k :: 0 <= k < |t| ==> !IsSpace(t[k]) && t[k] != '@'
  }

  /** The regex matches s with its `@` at i and its `\.` at j. */
  predicate SplitsAt(s: string, i: int, j: int)
  {
    0 <= i < j < |s| && s[i] == '@' && s[j] == '.' &&
    Segment(s[..i]) && Segment(s[i + 1..j]) && Segment(s[j + 1..])
  }

  /** `emailRegex.test(s)`: some choice of `@` and `.` splits s into three segments. */
  predicate EmailShaped(s: string)
  {
    exists i, j | 0 <= i < |s| && 0 <= j < |s| :: SplitsAt(s, i, j)
  }

  /** `emailRegex.test(v)`: the test converts its argument with String(v). */
  predicate ValidAddress(v: Value)
  {
    EmailShaped(ToStr(v))
  }

  /** A non-empty range of characters that are neither white space nor `@` is a segment. */
  lemma SegmentOfRange(s: string, lo: int, hi: int)
    requires 0 <= lo < hi <= |s|
    requires forall k :: lo <= k < hi ==> !IsSpace(s[k]) && s[k] != '@'
    ensures Segment(s[lo..hi])
  {
    var t := s[lo..hi];
    forall k | 0 <= k < |t|
      ensures !IsSpace(t[k]) && t[k] != '@'
    {
      assert t[k] == s[lo + k];
    }
  }

  /** The regex in plain words: no white space, exactly one `@` and not first,
      and a `.` in the domain with at least one character on each side. */
  lemma {:induction false} EmailShapedIff(s: string)
    ensures EmailShaped(s) <==>
              (forall k :: 0 <= k < |s| ==> !IsSpace(s[k])) &&
              exists i :: 0 < i < |s| && s[i] == '@' &&
                          (forall k :: 0 <= k < |s| && k != i ==> s[k] != '@') &&
                          (exists j :: i + 1 < j < |s| - 1 && s[j] == '.')
  {
    if EmailShaped(s) {
      var i, j :| 0 <= i < |s| && 0 <= j < |s| && SplitsAt(s, i, j);
      forall k | 0 <= k < |s|
        ensures !IsSpace(s[k]) && (k != i ==> s[k] != '@')
      {
        if k < i {
          assert s[..i][k] == s[k];
        } else if i < k < j {
          assert s[i + 1..j][k - i - 1] == s[k];
        } else if j < k {
          assert s[j + 1..][k - j - 1] == s[k];
        }
      }
      assert i + 1 < j < |s| - 1 && s[j] == '.';
    }
    if (forall k :: 0 <= k < |s| ==> !IsSpace(s[k])) &&
       exists i :: 0 < i < |s| && s[i] == '@' &&
                   (forall k :: 0 <= k < |s| && k != i ==> s[k] != '@') &&
                   (exists j :: i + 1 < j < |s| - 1 && s[j] == '.')
    {
      var i :| 0 < i < |s| && s[i] == '@' &&
               (forall k :: 0 <= k < |s| && k != i ==> s[k] != '@') &&
               (exists j :: i + 1 < j < |s| - 1 && s[j] == '.');
      var j :| i + 1 < j < |s| - 1 && s[j] == '.';
      SegmentOfRange(s, 0, i);
      SegmentOfRange(s, i + 1, j);
      SegmentOfRange(s, j + 1, |s|);
      assert SplitsAt(s, i, j);
    }
  }

  // ---------------------------------------------------------------------------
  // Recipients

  /** `Array.isArray(to) ? to : [to]` */
  function Recipients(to: Value): seq<Value>
  {
    if to.Arr? then to.items else [to]
  }

  /** The index of the first recipient at or after `from` that fails the address shape, if any. */
  function FirstInvalidFrom(rs: seq<Value>, from: nat): (r: Option<nat>)
    requires from <= |rs|
    ensures r.Some? ==> from <= r.value < |rs| && !ValidAddress(rs[r.value]) &&
                        forall k :: from <= k < r.value ==> ValidAddress(rs[k])
    ensures r.None? ==> forall k :: from <= k < |rs| ==> ValidAddress(rs[k])
    decreases |rs| - from
  {
    if from == |rs| then None
    else if !ValidAddress(rs[from]) then Some(from)
    else FirstInvalidFrom(rs, from + 1)
  }

  /** The index of the first recipient that fails the address shape, if any. */
  function FirstInvalid(rs: seq<Value>): (r: Option<nat>)
    ensures r.Some? ==> r.value < |rs| && !ValidAddress(rs[r.value]) &&
                        forall k :: 0 <= k < r.value ==> ValidAddress(rs[k])
    ensures r.None? ==> forall k :: 0 <= k < |rs| ==> ValidAddress(rs[k])
  {
    FirstInvalidFrom(rs, 0)
  }

  /** The first failing recipient is the one FirstInvalid names. */
  lemma FirstInvalidAt(rs: seq<Value>, i: nat)
    requires i < |rs| && !ValidAddress(rs[i])
    requires forall k :: 0 <= k < i ==> ValidAddress(rs[k])
    ensures FirstInvalid(rs) == Some(i)
  {
  }

  /** The `for (const email of recipients)` loop with its early return. */
  method FindInvalid(rs: seq<Value>) returns (bad: Option<Value>)
    ensures FirstInvalid(rs).None? ==> bad.None?
    ensures FirstInvalid(rs).Some? ==> bad == Some(rs[FirstInvalid(rs).value])
  {
    for i := 0 to |rs|
      invariant forall k :: 0 <= k < i ==> ValidAddress(rs[k])
    {
      if !ValidAddress(rs[i]) {
        FirstInvalidAt(rs, i);
        return Some(rs[i]);
      }
    }
    return None;
  }

  // ---------------------------------------------------------------------------
  // The handler as a function of its inputs

  /** `req.body[key]`, undefined when absent. */
  function Field(body: map<string, Value>, key: string): Value
  {
    if key in body then body[key] else Undefined
  }

  /** `res.status(status).json({ success: false, error: message })` */
  function FailureReply(status: int, message: Value): Reply
  {
    Reply(status, Obj(map["success" := Bool(false), "error" := message]))
  }

  /** The checks that run before the client is requested, in their fixed order. */
  function Precheck(cfg: RelayConfig, body: map<string, Value>): (r: Option<Reply>)
    ensures r.None? <==> Truthy(Field(body, "to")) && Truthy(Field(body, "subject")) &&
                         cfg.apiKey != "" && cfg.fromEmail != ""
  {
    if !Truthy(Field(body, "to")) || !Truthy(Field(body, "subject")) then Some(FailureReply(400, Str(MissingFieldsMessage)))
    else if cfg.apiKey == "" then Some(FailureReply(500, Str(NoApiKeyMessage)))
    else if cfg.fromEmail == "" then Some(FailureReply(500, Str(NoFromEmailMessage)))
    else None
  }

  /** The message of a provider error: its `message`, else the error itself if it
      is a string, else `<name>: Unknown error`, else "Failed to send email". */
  function ProviderErrorMessage(error: Value): (m: Value)
    ensures Truthy(Get(error, "message")) ==> m == Get(error, "message")
    ensures !Truthy(Get(error, "message")) && error.Str? ==> m == error
    ensures !Truthy(Get(error, "message")) && !error.Str? && Truthy(Get(error, "name")) ==>
              m == Str(ToStr(Get(error, "name")) + ": Unknown error")
    ensures !Truthy(Get(error, "message")) && !error.Str? && !Truthy(Get(error, "name")) ==>
              m == Str("Failed to send email")
  {
    if Truthy(Get(error, "message")) then Get(error, "message")
    else if error.Str? then error
    // `error.message || 'Unknown error'` is 'Unknown error' here, the message being falsy
    else if Truthy(Get(error, "name")) then Str(ToStr(Get(error, "name")) + ": Unknown error")
    else Str("Failed to send email")
  }

  /** The reply once the provider has been called. */
  function Outcome(cfg: RelayConfig, rs: seq<Value>, outcome: SendOutcome): (r: Reply)
    ensures r.status == 200 <==> outcome.Replied? && !Truthy(outcome.error)
    ensures r.status != 200 ==> r.status == 500 && Get(r.body, "success") == Bool(false)
    // the catch branch: `error.message || 'Internal server error'`
    ensures outcome.Threw? ==>
              Get(r.body, "error") == Str(if outcome.err.message != "" then outcome.err.message else "Internal server error")
    ensures r.status == 200 ==> Get(r.body, "success") == Bool(true) && Get(r.body, "to") == Arr(rs) &&
                                Get(r.body, "id") == Get(outcome.data, "id")
  {
    match outcome
    case Threw(e) =>
      FailureReply(500, Str(if e.message != "" then e.message else "Internal server error"))
    case Replied(data, error) =>
      if Truthy(error) then
        var details := if cfg.development then map["details" := error] else map[];
        Reply(500, Obj(map["success" := Bool(false), "error" := ProviderErrorMessage(error)] + details))
      else
        // JSON drops a member whose value is undefined
        var id := if Get(data, "id") == Undefined then map[] else map["id" := Get(data, "id")];
        Reply(200, Obj(map["success" := Bool(true), "message" := Str("Email sent successfully"), "to" := Arr(rs)] + id))
  }

  /** The message `emails.send` receives; html and text fall back on each other. */
  function Compose(cfg: RelayConfig, client: Client, body: map<string, Value>): (m: Outgoing)
    ensures m.to == Recipients(Field(body, "to")) && m.from == cfg.fromEmail && m.client == client
    ensures m.subject == Field(body, "subject")
    ensures Truthy(Field(body, "html")) ==> m.html == Field(body, "html")
    ensures !Truthy(Field(body, "html")) && Truthy(Field(body, "text")) ==> m.html == Field(body, "text")
    ensures Truthy(Field(body, "text")) ==> m.text == Field(body, "text")
    ensures !Truthy(Field(body, "text")) && Truthy(Field(body, "html")) ==> m.text == Field(body, "html")
    ensures !Truthy(Field(body, "html")) && !Truthy(Field(body, "text")) ==> m.html == Str("") && m.text == Str("")
  {
    var html := Field(body, "html");
    var text := Field(body, "text");
    Outgoing(client, cfg.fromEmail, Recipients(Field(body, "to")), Field(body, "subject"),
             Or(html, Or(text, Str(""))), Or(text, Or(html, Str(""))))
  }

  /** POST /api/send-email, with `instance` what getResend returns when asked. */
  function Handle(cfg: RelayConfig, body: map<string, Value>, instance: Option<Client>, outcome: SendOutcome): (h: Handled)
    ensures h.sent.Some? ==> instance.Some? && h.sent.value == Compose(cfg, instance.value, body)
    ensures h.sent.Some? <==> Precheck(cfg, body).None? && instance.Some? && FirstInvalid(Recipients(Field(body, "to"))).None?
  {
    match Precheck(cfg, body)
    case Some(r) => Handled(r, None)
    case None =>
      match instance
      case None => Handled(FailureReply(500, Str(NoClientMessage)), None)
      case Some(client) =>
        var rs := Recipients(Field(body, "to"));
        match FirstInvalid(rs)
        case Some(i) => Handled(FailureReply(400, Str(InvalidAddressPrefix + ToStr(rs[i]))), None)
        case None => Handled(Outcome(cfg, rs, outcome), Some(Compose(cfg, client, body)))
  }

  // ---------------------------------------------------------------------------
  // getResend and the handler over the module state

  /** What getResend returns: nothing without a key or a loaded class; otherwise
      the cached instance, or else the one just constructed (none if the
      constructor threw). */
  function Acquired(ready: bool, cached: Option<Client>, created: Option<Client>): (c: Option<Client>)
    ensures !ready ==> c.None?
    ensures ready && cached.Some? ==> c == cached
    ensures ready && cached.None? ==> c == created
  {
    if !ready then None else if cached.Some? then cached else created
  }

  /** Once getResend has returned an instance, every later call returns that same
      instance, whatever a later construction would have produced. */
  lemma CachedClientIsStable(cached: Option<Client>, first: Option<Client>, later: Option<Client>)
    requires Acquired(true, cached, first).Some?
    ensures var cache := Acquired(true, cached, first);
            Acquired(true, cache, later) == Acquired(true, cached, first)
  {
  }

  /** The server process: configuration read at start-up, whether the Resend class
      could be loaded, and the module-level `resend` cache. */
  class Relay {
    const config: RelayConfig
    const classLoaded: bool
    var client: Option<Client>

    /** The cache only ever holds an instance when one could be created. */
    predicate Valid()
      reads this
    {
      client.Some? ==> Ready()
    }

    /** getResend can produce an instance at all. */
    predicate Ready()
    {
      config.apiKey != "" && classLoaded
    }

    constructor (config: RelayConfig, classLoaded: bool)
      ensures this.config == config && this.classLoaded == classLoaded
      ensures client.None? && Valid()
    {
      this.config := config;
      this.classLoaded := classLoaded;
      client := None;
    }

    /** getResend(): `created` is what `new ResendClass(key)` yields if it is called. */
    method GetResend(created: Option<Client>) returns (c: Option<Client>)
      requires Valid()
      modifies this
      ensures Valid()
      ensures c == Acquired(Ready(), old(client), created)
      ensures client == if c.Some? then c else old(client)
    {
      if config.apiKey == "" {
        return None;
      }
      if !classLoaded {
        return None;
      }
      if client.None? {
        if created.None? {
          return None;
        }
        client := created;
      }
      return client;
    }

    /** POST /api/send-email: getResend is asked only once the fields and the
        configuration have passed their checks. */
    method SendEmail(body: map<string, Value>, created: Option<Client>, outcome: SendOutcome) returns (h: Handled)
      requires Valid()
      modifies this
      ensures Valid()
      ensures Precheck(config, body).Some? ==> h == Handled(Precheck(config, body).value, None) && client == old(client)
      ensures Precheck(config, body).None? ==>
                var instance := Acquired(Ready(), old(client), created);
                h == Handle(config, body, instance, outcome) &&
                client == if instance.Some? then instance else old(client)
    {
      var pre := Precheck(config, body);
      if pre.Some? {
        return Handled(pre.value, None);
      }
      var instance := GetResend(created);
      if instance.None? {
        return Handled(FailureReply(500, Str(NoClientMessage)), None);
      }
      var rs := Recipients(Field(body, "to"));
      var bad := FindInvalid(rs);
      if bad.Some? {
        return Handled(FailureReply(400, Str(InvalidAddressPrefix + ToStr(bad.value))), None);
      }
      h := Handled(Outcome(config, rs, outcome), Some(Compose(config, instance.value, body)));
    }
  }

  // ---------------------------------------------------------------------------
  // Properties of the handler

  /** Missing `to` or `subject` is reported before any configuration problem. */
  lemma MissingFieldsComeFirst(cfg: RelayConfig, body: map<string, Value>, instance: Option<Client>, outcome: SendOutcome)
    requires !Truthy(Field(body, "to")) || !Truthy(Field(body, "subject"))
    ensures Handle(cfg, body, instance, outcome) == Handled(FailureReply(400, Str(MissingFieldsMessage)), None)
  {
  }

  /** The configuration checks in order: the API key, then the sender, then the client. */
  lemma ConfigurationChecksInOrder(cfg: RelayConfig, body: map<string, Value>, instance: Option<Client>, outcome: SendOutcome)
    requires Truthy(Field(body, "to")) && Truthy(Field(body, "subject"))
    ensures cfg.apiKey == "" ==>
              Handle(cfg, body, instance, outcome) == Handled(FailureReply(500, Str(NoApiKeyMessage)), None)
    ensures cfg.apiKey != "" && cfg.fromEmail == "" ==>
              Handle(cfg, body, instance, outcome) == Handled(FailureReply(500, Str(NoFromEmailMessage)), None)
    ensures cfg.apiKey != "" && cfg.fromEmail != "" && instance.None? ==>
              Handle(cfg, body, instance, outcome) == Handled(FailureReply(500, Str(NoClientMessage)), None)
  {
  }

  /** The first address that fails the shape is reported with 400 and nothing is sent. */
  lemma FirstInvalidRecipientReported(cfg: RelayConfig, body: map<string, Value>, client: Client,
                                      outcome: SendOutcome, i: nat)
    requires Precheck(cfg, body).None?
    requires var rs := Recipients(Field(body, "to"));
             i < |rs| && !ValidAddress(rs[i]) && forall k :: 0 <= k < i ==> ValidAddress(rs[k])
    ensures Handle(cfg, body, Some(client), outcome)
              == Handled(FailureReply(400, Str(InvalidAddressPrefix + ToStr(Recipients(Field(body, "to"))[i]))), None)
  {
    FirstInvalidAt(Recipients(Field(body, "to")), i);
  }

  /** A request that passes every check is sent to all its recipients through the
      client, and answered 200 exactly when the provider reports no error. */
  lemma AcceptedRequestIsSent(cfg: RelayConfig, body: map<string, Value>, client: Client, outcome: SendOutcome)
    requires Precheck(cfg, body).None?
    requires forall k :: 0 <= k < |Recipients(Field(body, "to"))| ==> ValidAddress(Recipients(Field(body, "to"))[k])
    ensures var h := Handle(cfg, body, Some(client), outcome);
            h.sent == Some(Compose(cfg, client, body)) &&
            h.reply == Outcome(cfg, Recipients(Field(body, "to")), outcome) &&
            (h.reply.status == 200 <==> outcome.Replied? && !Truthy(outcome.error))
  {
  }

  /** An empty recipient array is truthy, so it passes every check and is sent
      with no recipients at all. */
  lemma EmptyRecipientListIsSent(cfg: RelayConfig, body: map<string, Value>, client: Client, outcome: SendOutcome)
    requires Field(body, "to") == Arr([]) && Truthy(Field(body, "subject"))
    requires cfg.apiKey != "" && cfg.fromEmail != ""
    ensures Handle(cfg, body, Some(client), outcome).sent == Some(Compose(cfg, client, body))
    ensures Compose(cfg, client, body).to == []
  {
  }

  /** A single address and a one-element list holding it are handled alike:
      the same checks, the same message and the same reply. */
  lemma SingleAddressAsList(cfg: RelayConfig, body: map<string, Value>, address: Value,
                            instance: Option<Client>, outcome: SendOutcome)
    requires !address.Arr? && Truthy(address)
    ensures Handle(cfg, body["to" := address], instance, outcome) == Handle(cfg, body["to" := Arr([address])], instance, outcome)
  {
  }

  /** Provider error details are exposed only in development. */
  lemma DetailsOnlyInDevelopment(cfg: RelayConfig, rs: seq<Value>, data: Value, error: Value)
    requires Truthy(error)
    ensures var r := Outcome(cfg, rs, Replied(data, error));
            r.status == 500 && Get(r.body, "error") == ProviderErrorMessage(error) &&
            (cfg.development <==> Get(r.body, "details") != Undefined) &&
            (cfg.development ==> Get(r.body, "details") == error)
  {
  }

  // ---------------------------------------------------------------------------
  // injectSupabaseConfig

  function UrlAssignment(url: string): string
  {
    "window.SUPABASE_URL = '" + url + "'"
  }

  function KeyAssignment(anonKey: string): string
  {
    "window.SUPABASE_ANON_KEY = '" + anonKey + "'"
  }

  const ScriptOpen := "\n    <!-- Supabase Configuration -->\n    <script>\n        "
  const StatementBreak := ";\n        "
  const ScriptClose := ";\n    </script>"
  const SupabaseScriptTag := "\n    <script src=\"/js/supabase-api.js\"></script>"

  /** The script that sets window.SUPABASE_URL and window.SUPABASE_ANON_KEY. */
  function ConfigScript(url: string, anonKey: string): string
  {
    ScriptOpen + UrlAssignment(url) + StatementBreak + KeyAssignment(anonKey) + ScriptClose
  }

  /** The replacement for a forge-api.js script tag. */
  function Replacement(url: string, anonKey: string): string
  {
    ConfigScript(url, anonKey) + SupabaseScriptTag
  }

  /** injectSupabaseConfig(html): `rewrite` stands for the two tag substitutions. */
  function InjectSupabaseConfig(html: string, url: string, anonKey: string, rewrite: (string, string) -> string): (r: string)
    ensures url == "" || anonKey == "" ==> r == html
    ensures url != "" && anonKey != "" ==> r == rewrite(html, Replacement(url, anonKey))
  {
    if url == "" || anonKey == "" then html else rewrite(html, Replacement(url, anonKey))
  }

  /** y occurs in x + y right after x. */
  lemma OccursAtEnd(x: string, y: string)
    ensures OccursAt(x + y, y, |x|)
  {
    assert (x + y)[|x|..|x| + |y|] == y;
  }

  /** An occurrence survives appending more text. */
  lemma OccursExtended(s: string, pat: string, i: int, t: string)
    requires OccursAt(s, pat, i)
    ensures OccursAt(s + t, pat, i)
  {
    assert (s + t)[i..i + |pat|] == s[i..i + |pat|];
  }

  /** The injected script carries both configuration values verbatim. */
  lemma ConfigScriptCarriesValues(url: string, anonKey: string)
    ensures Contains(Replacement(url, anonKey), UrlAssignment(url))
    ensures Contains(Replacement(url, anonKey), KeyAssignment(anonKey))
  {
    var u, k := UrlAssignment(url), KeyAssignment(anonKey);
    var s1 := ScriptOpen + u;
    var s2 := s1 + StatementBreak;
    var s3 := s2 + k;
    var s4 := s3 + ScriptClose;
    assert Replacement(url, anonKey) == s4 + SupabaseScriptTag;
    OccursAtEnd(ScriptOpen, u);
    OccursExtended(s1, u, |ScriptOpen|, StatementBreak);
    OccursExtended(s2, u, |ScriptOpen|, k);
    OccursExtended(s3, u, |ScriptOpen|, ScriptClose);
    OccursExtended(s4, u, |ScriptOpen|, SupabaseScriptTag);
    OccursAtEnd(s2, k);
    OccursExtended(s3, k, |s2|, ScriptClose);
    OccursExtended(s4, k, |s2|, SupabaseScriptTag);
  }
}

=== FILE: forge_api.dfy ===
/** The Forge REST variant of the data-access adapter (js/forge-api.js). Same
    interface as the PostgREST variant, different paths and error handling: no
    apikey or Prefer headers, no empty-body handling, no `[]` default for select,
    and an upload that sends multipart form data. */
module ForgeApi {
  import opened JsValues
  import opened Http
  import opened QueryBuilder
  import opened SessionStore

  /** FORGE_BASE_URL */
  datatype Config = Config(baseUrl: string)

  // ---------------------------------------------------------------------------
  // forgeRequest

  /** The headers forgeRequest sends: a JSON content type the caller may override,
      the caller's headers, and Authorization only when a session token exists. */
  function RequestHeaders(callerHeaders: map<string, string>, session: Value): (h: map<string, string>)
    ensures SessionToken(session).Some? ==> h.Keys == callerHeaders.Keys + {"Content-Type", "Authorization"}
    ensures SessionToken(session).None? ==> h.Keys == callerHeaders.Keys + {"Content-Type"}
    ensures forall k :: k in callerHeaders && k != "Authorization" ==> h[k] == callerHeaders[k]
    ensures "Content-Type" !in callerHeaders ==> h["Content-Type"] == "application/json"
    ensures SessionToken(session).Some? ==> h["Authorization"] == "Bearer " + ToStr(SessionToken(session).value)
    ensures SessionToken(session).None? && "Authorization" in callerHeaders ==> h["Authorization"] == callerHeaders["Authorization"]
  {
    var merged := map["Content-Type" := "application/json"] + callerHeaders;
    match SessionToken(session)
    case Some(t) => merged["Authorization" := "Bearer " + ToStr(t)]
    case None => merged
  }

  /** What a non-ok response throws: an Error with the body's `message`, else
      `Request failed: <status>`; a TypeError when the body is JSON null. */
  function FailureThrown(r: Response, p: Platform): (t: Thrown)
    ensures p.parse(r.text).Failure? ==> t == Raised(JsError("Error", "Request failed"))
    ensures p.parse(r.text) == Success(Null) ==> t == NullPropertyError(Null, "message")
    // any other JSON body (an object, an array, a string, a number): its `message`, if truthy
    ensures p.parse(r.text).Success? && !p.parse(r.text).value.Null? && !p.parse(r.text).value.Undefined? ==>
              var m := Get(p.parse(r.text).value, "message");
              t == Raised(JsError("Error", if Truthy(m) then ToStr(m) else "Request failed: " + IntToString(r.status)))
  {
    var body := match p.parse(r.text) case Success(v) => v case Failure(_) => Obj(map["message" := Str("Request failed")]);
    match Prop(body, "message")
    case Failure(t) => t
    case Success(m) => ErrorOf(Or(m, Str("Request failed: " + IntToString(r.status))))
  }

  /** `response.json()` on an ok response: the parsed body, a SyntaxError otherwise
      (an empty body included, whenever JSON.parse rejects it). */
  function JsonBody(r: Response, p: Platform): Result<Value, Thrown>
  {
    match p.parse(r.text)
    case Success(x) => Success(x)
    case Failure(m) => Failure(Raised(JsError("SyntaxError", m)))
  }

  /** What forgeRequest yields once fetch has settled. */
  function Settle(fetched: FetchOutcome, p: Platform): Result<Value, Thrown>
  {
    match fetched
    case NetworkFailure(t) => Failure(t)
    case Responded(r) => if r.Ok() then JsonBody(r, p) else Failure(FailureThrown(r, p))
  }

  /** What `await forgeRequest(...)` yields or throws, whatever the endpoint: the
      SyntaxError of a corrupt stored session, else what the response settles to. */
  function Awaited(p: Platform, items: map<string, string>, fetched: FetchOutcome): Result<Value, Thrown>
  {
    match StoredSession(items, ForgeKeys, p)
    case Failure(t) => Failure(t)
    case Success(_) => Settle(fetched, p)
  }

  /** forgeRequest(endpoint, options) */
  function Request(cfg: Config, p: Platform, items: map<string, string>, endpoint: string,
                   opts: RequestOptions, fetched: FetchOutcome): (ex: Exchange)
    ensures ex.sent.Some? <==> StoredSession(items, ForgeKeys, p).Success?
    ensures ex.sent.None? ==> ex.result == Failure(StoredSession(items, ForgeKeys, p).error)
    ensures ex.sent.Some? ==>
              ex.sent.value == HttpRequest(opts.verb, cfg.baseUrl + endpoint,
                                           RequestHeaders(opts.headers, StoredSession(items, ForgeKeys, p).value),
                                           opts.body)
    ensures ex.sent.Some? && fetched.Responded? && !fetched.response.Ok() ==>
              ex.result == Failure(FailureThrown(fetched.response, p))
    ensures ex.sent.Some? && fetched.Responded? && fetched.response.Ok() ==>
              ex.result == JsonBody(fetched.response, p)
    ensures ex.sent.Some? && fetched.NetworkFailure? ==> ex.result == Failure(fetched.thrown)
    ensures ex.result == Awaited(p, items, fetched)
  {
    match StoredSession(items, ForgeKeys, p)
    case Failure(t) => Exchange(None, Failure(t))
    case Success(session) =>
      var req := HttpRequest(opts.verb, cfg.baseUrl + endpoint, RequestHeaders(opts.headers, session), opts.body);
      Exchange(Some(req), Settle(fetched, p))
  }

  // ---------------------------------------------------------------------------
  // forgeDB

  /** The path of a table: `/api/database/<table>`. */
  function TablePath(table: string): string
  {
    "/api/database/" + table
  }

  /** forgeDB.select(table, options): a null filter value rejects the promise; the
      data is returned as the server sent it (no `[]` default). */
  function Select(cfg: Config, p: Platform, items: map<string, string>, table: string,
                  opts: SelectOptions, fetched: FetchOutcome): (c: Call<Envelope>)
    ensures c.outcome.Rejected? <==> SelectParams(opts).Failure?
    ensures c.outcome.Rejected? ==> c.sent.None? && c.outcome.thrown == NullPropertyError(Null, "operator")
    ensures c.outcome.Resolved? ==> ErrorMeansNoData(c.outcome.envelope)
    // with the parameters built, the request goes out unless the stored session is corrupt
    ensures SelectParams(opts).Success? ==> (c.sent.Some? <==> StoredSession(items, ForgeKeys, p).Success?)
    ensures c.sent.Some? ==>
              c.sent.value == HttpRequest("GET", cfg.baseUrl + WithQuery(TablePath(table), SelectParams(opts).value, p.formEncode),
                                          RequestHeaders(map[], StoredSession(items, ForgeKeys, p).value), NoBody)
    // `{ data, error: null }` with the data as awaited, or `{ data: null, error }`
    ensures c.outcome.Resolved? && Awaited(p, items, fetched).Success? ==>
              c.outcome.envelope == Envelope(Awaited(p, items, fetched).value, None)
    ensures c.outcome.Resolved? && Awaited(p, items, fetched).Failure? ==>
              c.outcome.envelope == Envelope(Null, Some(Awaited(p, items, fetched).error))
  {
    FilterParamsAt(opts.filters);
    match SelectParams(opts)
    case Failure(t) => Call(None, Rejected(t))
    case Success(ps) =>
      var ex := Request(cfg, p, items, WithQuery(TablePath(table), ps, p.formEncode), RequestOptions("GET", NoBody, map[]), fetched);
      Call(ex.sent, Resolved(
        match ex.result
        case Success(data) => Envelope(data, None)
        case Failure(t) => Caught(t)))
  }

  /** `Array.isArray(records) ? data : (data[0] || data)`; indexing null data throws. */
  function Unwrap(records: Value, data: Value): (r: Result<Value, Thrown>)
    ensures records.Arr? ==> r == Success(data)
    ensures !records.Arr? && (data.Null? || data.Undefined?) ==> r == Failure(NullPropertyError(data, "0"))
    ensures !records.Arr? && data.Arr? && |data.items| > 0 && Truthy(data.items[0]) ==> r == Success(data.items[0])
    ensures !records.Arr? && data.Arr? && |data.items| == 0 ==> r == Success(data)
    // `data[0] || data`: the first element when truthy, otherwise the data itself,
    // whatever its shape (an object, a string, an array with a falsy first element)
    ensures !records.Arr? && !(data.Null? || data.Undefined?) && Truthy(Index0(data).value) ==>
              r == Success(Index0(data).value)
    ensures !records.Arr? && !(data.Null? || data.Undefined?) && !Truthy(Index0(data).value) ==>
              r == Success(data)
    ensures r.Success? ==> r.value == data || (Truthy(r.value) && Index0(data) == Success(r.value))
  {
    if records.Arr? then Success(data)
    else
      match Index0(data)
      case Failure(t) => Failure(t)
      case Success(first) => Success(Or(first, data))
  }

  /** forgeDB.insert(table, records): records travel as an array; a single record
      gets the first row back. */
  function Insert(cfg: Config, p: Platform, items: map<string, string>, table: string,
                  records: Value, fetched: FetchOutcome): (c: Call<Envelope>)
    ensures c.outcome.Resolved? && ErrorMeansNoData(c.outcome.envelope)
    ensures c.sent.Some? <==> StoredSession(items, ForgeKeys, p).Success?
    ensures c.sent.Some? ==>
              c.sent.value == HttpRequest("POST", cfg.baseUrl + TablePath(table),
                                          RequestHeaders(map[], StoredSession(items, ForgeKeys, p).value),
                                          JsonText(p.stringify(if records.Arr? then records else Arr([records]))))
    // the unwrapped data, or the error thrown by the request or by `data[0]`
    ensures Awaited(p, items, fetched).Success? && Unwrap(records, Awaited(p, items, fetched).value).Success? ==>
              c.outcome.envelope == Envelope(Unwrap(records, Awaited(p, items, fetched).value).value, None)
    ensures Awaited(p, items, fetched).Success? && Unwrap(records, Awaited(p, items, fetched).value).Failure? ==>
              c.outcome.envelope == Envelope(Null, Some(Unwrap(records, Awaited(p, items, fetched).value).error))
    ensures Awaited(p, items, fetched).Failure? ==>
              c.outcome.envelope == Envelope(Null, Some(Awaited(p, items, fetched).error))
  {
    var recordsArray := if records.Arr? then records else Arr([records]);
    var ex := Request(cfg, p, items, TablePath(table), RequestOptions("POST", JsonText(p.stringify(recordsArray)), map[]), fetched);
    Call(ex.sent, Resolved(
      match ex.result
      case Failure(t) => Caught(t)
      case Success(data) =>
        match Unwrap(records, data)
        case Success(d) => Envelope(d, None)
        case Failure(t) => Caught(t)))
  }

  /** forgeDB.update(table, filters, updates) */
  function Update(cfg: Config, p: Platform, items: map<string, string>, table: string,
                  filters: seq<(string, Value)>, updates: Value, fetched: FetchOutcome): (c: Call<Envelope>)
    ensures c.outcome.Resolved? && ErrorMeansNoData(c.outcome.envelope)
    ensures c.sent.Some? <==> StoredSession(items, ForgeKeys, p).Success?
    ensures c.sent.Some? ==>
              c.sent.value == HttpRequest("PATCH", cfg.baseUrl + WithQuery(TablePath(table), EqParams(filters), p.formEncode),
                                          RequestHeaders(map[], StoredSession(items, ForgeKeys, p).value),
                                          JsonText(p.stringify(updates)))
    ensures Awaited(p, items, fetched).Success? ==>
              c.outcome.envelope == Envelope(Awaited(p, items, fetched).value, None)
    ensures Awaited(p, items, fetched).Failure? ==>
              c.outcome.envelope == Envelope(Null, Some(Awaited(p, items, fetched).error))
  {
    var url := WithQuery(TablePath(table), EqParams(filters), p.formEncode);
    var ex := Request(cfg, p, items, url, RequestOptions("PATCH", JsonText(p.stringify(updates)), map[]), fetched);
    Call(ex.sent, Resolved(
      match ex.result
      case Success(data) => Envelope(data, None)
      case Failure(t) => Caught(t)))
  }

  /** forgeDB.delete(table, filters): the response body must still parse as JSON,
      but its value is discarded. */
  function Delete(cfg: Config, p: Platform, items: map<string, string>, table: string,
                  filters: seq<(string, Value)>, fetched: FetchOutcome): (c: Call<Envelope>)
    ensures c.outcome.Resolved? && c.outcome.envelope.data == Null
    ensures c.sent.Some? <==> StoredSession(items, ForgeKeys, p).Success?
    ensures c.sent.Some? ==>
              c.sent.value == HttpRequest("DELETE", cfg.baseUrl + WithQuery(TablePath(table), EqParams(filters), p.formEncode),
                                          RequestHeaders(map[], StoredSession(items, ForgeKeys, p).value), NoBody)
    // success is `{ data: null, error: null }`
    ensures Awaited(p, items, fetched).Success? ==> c.outcome.envelope == Envelope(Null, None)
    ensures Awaited(p, items, fetched).Failure? ==>
              c.outcome.envelope == Envelope(Null, Some(Awaited(p, items, fetched).error))
  {
    var url := WithQuery(TablePath(table), EqParams(filters), p.formEncode);
    var ex := Request(cfg, p, items, url, RequestOptions("DELETE", NoBody, map[]), fetched);
    Call(ex.sent, Resolved(
      match ex.result
      case Success(_) => Envelope(Null, None)
      case Failure(t) => Caught(t)))
  }

  // ---------------------------------------------------------------------------
  // forgeStorage

  /** The object URL of a key: `<base>/api/storage/buckets/<bucket>/objects/<enc(key)>`. */
  function ObjectUrl(cfg: Config, p: Platform, bucket: string, key: string): string
  {
    cfg.baseUrl + "/api/storage/buckets/" + bucket + "/objects/" + p.encodeUriComponent(key)
  }

  /** The headers of an upload: only Authorization, and only with a session token
      (the browser supplies the multipart content type). */
  function UploadHeaders(session: Value): (h: map<string, string>)
    ensures SessionToken(session).Some? ==> h == map["Authorization" := "Bearer " + ToStr(SessionToken(session).value)]
    ensures SessionToken(session).None? ==> h == map[]
  {
    match SessionToken(session)
    case Some(t) => map["Authorization" := "Bearer " + ToStr(t)]
    case None => map[]
  }

  /** What the try block of upload yields once fetch has settled. */
  function UploadSettle(cfg: Config, p: Platform, bucket: string, fileName: string, fetched: FetchOutcome): (e: UploadEnvelope)
    ensures UploadErrorMeansNoData(e)
    ensures fetched.NetworkFailure? ==> e == UploadEnvelope(None, Some(fetched.thrown))
    ensures fetched.Responded? && !fetched.response.Ok() ==> e.data.None?
    // an ok response succeeds exactly when its body parses to something other than null
    // (reading `data.key` of null throws)
    ensures fetched.Responded? && fetched.response.Ok() ==>
              (e.data.Some? <==> p.parse(fetched.response.text).Success? &&
                                 !p.parse(fetched.response.text).value.Null? &&
                                 !p.parse(fetched.response.text).value.Undefined?)
    // `data.key || fileName`
    ensures e.data.Some? ==>
              fetched.Responded? && p.parse(fetched.response.text).Success? &&
              e.data.value.key == Or(Get(p.parse(fetched.response.text).value, "key"), Str(fileName))
    ensures e.data.Some? ==>
              e.data.value.url == ObjectUrl(cfg, p, bucket, ToStr(e.data.value.key)) &&
              (Truthy(e.data.value.key) || e.data.value.key == Str(fileName)) && e.data.value.path.None?
  {
    match fetched
    case NetworkFailure(t) => UploadEnvelope(None, Some(t))
    case Responded(r) =>
      if !r.Ok() then
        var body := match p.parse(r.text) case Success(v) => v case Failure(_) => Obj(map["message" := Str("Upload failed")]);
        match Prop(body, "message")
        case Failure(t) => UploadEnvelope(None, Some(t))
        case Success(m) => UploadEnvelope(None, Some(ErrorOf(Or(m, Str("Upload failed")))))
      else
        match JsonBody(r, p)
        case Failure(t) => UploadEnvelope(None, Some(t))
        case Success(data) =>
          match Prop(data, "key")
          case Failure(t) => UploadEnvelope(None, Some(t))
          case Success(k) =>
            var key := Or(k, Str(fileName));
            UploadEnvelope(Some(UploadInfo(ObjectUrl(cfg, p, bucket, ToStr(key)), key, None)), None)
  }

  /** forgeStorage.upload(bucket, fileName, file). Reading the stored session
      happens outside the try block, so a corrupt session rejects the promise. */
  function Upload(cfg: Config, p: Platform, items: map<string, string>, bucket: string, fileName: string,
                  file: FileBlob, fetched: FetchOutcome): (c: Call<UploadEnvelope>)
    ensures c.outcome.Rejected? <==> StoredSession(items, ForgeKeys, p).Failure?
    ensures c.outcome.Rejected? ==> c.sent.None? && c.outcome.thrown.Raised? && c.outcome.thrown.err.name == "SyntaxError"
    ensures c.outcome.Resolved? ==> UploadErrorMeansNoData(c.outcome.envelope)
    ensures StoredSession(items, ForgeKeys, p).Success? ==>
              c.sent == Some(HttpRequest("POST", ObjectUrl(cfg, p, bucket, fileName),
                                         UploadHeaders(StoredSession(items, ForgeKeys, p).value), MultipartFile("file", file))) &&
              c.outcome == Resolved(UploadSettle(cfg, p, bucket, fileName, fetched))
  {
    match StoredSession(items, ForgeKeys, p)
    case Failure(t) => Call(None, Rejected(t))
    case Success(session) =>
      var req := HttpRequest("POST", ObjectUrl(cfg, p, bucket, fileName), UploadHeaders(session), MultipartFile("file", file));
      Call(Some(req), Resolved(UploadSettle(cfg, p, bucket, fileName, fetched)))
  }

  // ---------------------------------------------------------------------------
  // Properties of the verbs

  /** A single record whose response is null: `data[0]` throws inside the try, so
      the caller gets a TypeError envelope. */
  lemma InsertNullResponseIsTypeError(cfg: Config, p: Platform, items: map<string, string>, table: string,
                                      records: Value, r: Response)
    requires !records.Arr?
    requires StoredSession(items, ForgeKeys, p).Success?
    requires r.Ok() && p.parse(r.text) == Success(Null)
    ensures Insert(cfg, p, items, table, records, Responded(r)).outcome
              == Resolved(Envelope(Null, Some(Raised(JsError("TypeError", "Cannot read properties of null (reading '0')")))))
  {
    assert NullPropertyError(Null, "0") == Raised(JsError("TypeError", "Cannot read properties of null (reading '0')"));
  }

  /** Insert mirrors the shape of its input, as in the PostgREST variant. */
  lemma InsertMirrorsShape(cfg: Config, p: Platform, items: map<string, string>, table: string,
                           records: Value, r: Response)
    requires StoredSession(items, ForgeKeys, p).Success?
    requires r.Ok() && p.parse(r.text).Success?
    ensures records.Arr? ==>
              Insert(cfg, p, items, table, records, Responded(r)).outcome == Resolved(Envelope(p.parse(r.text).value, None))
    ensures var d := p.parse(r.text).value;
            !records.Arr? && d.Arr? && |d.items| > 0 && Truthy(d.items[0]) ==>
              Insert(cfg, p, items, table, records, Responded(r)).outcome == Resolved(Envelope(d.items[0], None))
  {
  }

  /** The uploaded object's URL names the key the server returned, falling back to
      the caller's file name. */
  lemma UploadKeyChoice(cfg: Config, p: Platform, bucket: string, fileName: string, r: Response, fields: map<string, Value>)
    requires r.Ok() && p.parse(r.text) == Success(Obj(fields))
    ensures var e := UploadSettle(cfg, p, bucket, fileName, Responded(r));
            e.error.None? &&
            ("key" in fields && Truthy(fields["key"]) ==> e.data.value.key == fields["key"]) &&
            (!("key" in fields && Truthy(fields["key"])) ==>
               e.data.value.key == Str(fileName) && e.data.value.url == ObjectUrl(cfg, p, bucket, fileName))
  {
  }

  /** A failed upload reports the body's message, or "Upload failed"; a JSON null
      body makes `error.message` throw, and that TypeError is reported instead. */
  lemma UploadFailureMessage(cfg: Config, p: Platform, bucket: string, fileName: string, r: Response)
    requires !r.Ok()
    ensures var e := UploadSettle(cfg, p, bucket, fileName, Responded(r));
            p.parse(r.text) == Success(Null) ==> e == UploadEnvelope(None, Some(NullPropertyError(Null, "message")))
    ensures var e := UploadSettle(cfg, p, bucket, fileName, Responded(r));
            var m := if p.parse(r.text).Success? then Get(p.parse(r.text).value, "message") else Undefined;
            (p.parse(r.text).Failure? || (!p.parse(r.text).value.Null? && !p.parse(r.text).value.Undefined?)) ==>
              e == UploadEnvelope(None, Some(Raised(JsError("Error", if Truthy(m) then ToStr(m) else "Upload failed"))))
  {
  }

  /** With the same injective encoder, the request URL and the returned URL of an
      upload agree exactly when the server kept the caller's name (or sent none). */
  lemma UploadUrlMatchesRequest(cfg: Config, p: Platform, bucket: string, fileName: string, key: string)
    requires Injective(p.encodeUriComponent)
    ensures ObjectUrl(cfg, p, bucket, key) == ObjectUrl(cfg, p, bucket, fileName) <==> key == fileName
  {
    var prefix := cfg.baseUrl + "/api/storage/buckets/" + bucket + "/objects/";
    if ObjectUrl(cfg, p, bucket, key) == ObjectUrl(cfg, p, bucket, fileName) {
      assert ObjectUrl(cfg, p, bucket, key)[|prefix|..] == p.encodeUriComponent(key);
      assert ObjectUrl(cfg, p, bucket, fileName)[|prefix|..] == p.encodeUriComponent(fileName);
    }
  }
}

=== FILE: http.dfy ===
/** The HTTP exchange as the adapters see it: the request they build, the response
    (or transport failure) fetch hands back, and the `{data, error}` envelopes and
    promise outcomes they return to the application. */
module Http {
  import opened JsValues

  /** A browser File/Blob: its declared MIME type (`file.type`, "" when unknown) and bytes. */
  datatype FileBlob = FileBlob(mimeType: string, content: seq<bv8>)

  datatype Body =
    | NoBody
    | JsonText(text: string)                        // a JSON.stringify result
    | RawFile(file: FileBlob)                       // the blob itself as the body
    | MultipartFile(field: string, file: FileBlob)  // a FormData with one file field

  datatype HttpRequest = HttpRequest(verb: string, url: string, headers: map<string, string>, body: Body)

  /** What fetch resolves to: the status, the content-length header if any, and the
      body text (what `response.text()` yields). */
  datatype Response = Response(status: int, contentLength: Option<string>, text: string) {
    /** `response.ok` as the Fetch standard defines it. */
    predicate Ok() {
      200 <= status <= 299
    }
  }

  /** fetch either resolves with a response or rejects (DNS, refused connection, CORS, ...). */
  datatype FetchOutcome = Responded(response: Response) | NetworkFailure(thrown: Thrown)

  /** The `options` argument of the request helpers. */
  datatype RequestOptions = RequestOptions(verb: string, body: Body, headers: map<string, string>)

  /** One call of a request helper: the request handed to fetch (none when the
      helper threw before calling fetch) and the value it returned or threw. */
  datatype Exchange = Exchange(sent: Option<HttpRequest>, result: Result<Value, Thrown>)

  /** The `{data, error}` object every database verb returns. */
  datatype Envelope = Envelope(data: Value, error: Option<Thrown>)

  /** `{url, key}` (and `path` for the PostgREST variant). */
  datatype UploadInfo = UploadInfo(url: string, key: Value, path: Option<Value>)

  /** The `{data, error}` object an upload returns. */
  datatype UploadEnvelope = UploadEnvelope(data: Option<UploadInfo>, error: Option<Thrown>)

  /** How the promise an async adapter method returns settles. */
  datatype Completion<E> = Resolved(envelope: E) | Rejected(thrown: Thrown)

  /** One adapter call: what it sent, and how its promise settled. */
  datatype Call<E> = Call(sent: Option<HttpRequest>, outcome: Completion<E>)

  /** The catch branch of every verb: `{ data: null, error }`. */
  function Caught(t: Thrown): Envelope
  {
    Envelope(Null, Some(t))
  }

  /** An envelope in which a reported error always comes with null data. */
  predicate ErrorMeansNoData(e: Envelope) {
    e.error.Some? ==> e.data == Null
  }

  predicate UploadErrorMeansNoData(e: UploadEnvelope) {
    (e.error.Some? ==> e.data.None?) && (e.error.None? ==> e.data.Some?)
  }
}

=== FILE: js_values.dfy ===
/** The slice of JavaScript's value semantics that the data-access adapter and the
    email relay depend on: JSON-shaped values, truthiness, string conversion,
    property access and the shape of thrown values. Numbers are integers only. */
module JsValues {

  datatype Option<+T> = None | Some(value: T)

  datatype Result<+T, +E> = Success(value: T) | Failure(error: E)

  /** A JavaScript value as it appears in request bodies, parsed responses,
      filter maps and stored sessions. `Obj` is a plain object; its keys are unique. */
  datatype Value =
    | Undefined
    | Null
    | Bool(b: bool)
    | Num(n: int)
    | Str(s: string)
    | Arr(items: seq<Value>)
    | Obj(fields: map<string, Value>)

  /** An `Error` object (or subclass) identified by its `name` and `message`. */
  datatype JsError = JsError(name: string, message: string)

  /** What a `throw` or a rejected promise carries: an Error object or any other value. */
  datatype Thrown = Raised(err: JsError) | RaisedValue(v: Value)

  /** The platform pieces the adapter calls but whose code is not modelled:
      JSON.parse (failure carries the SyntaxError message), JSON.stringify,
      encodeURIComponent and the per-component encoding URLSearchParams applies. */
  datatype Platform = Platform(
    parse: string -> Result<Value, string>,
    stringify: Value -> string,
    encodeUriComponent: string -> string,
    formEncode: string -> string)

  /** `if (v)` */
  predicate Truthy(v: Value) {
    match v
    case Undefined => false
    case Null => false
    case Bool(b) => b
    case Num(n) => n != 0
    case Str(s) => s != ""
    case Arr(_) => true
    case Obj(_) => true
  }

  /** `a || b` */
  function Or(a: Value, b: Value): Value
  {
    if Truthy(a) then a else b
  }

  function DigitChar(d: nat): char
    requires d < 10
  {
    "0123456789"[d]
  }

  /** Decimal rendering of a natural number, as `String(n)` gives it. */
  function NatToString(n: nat): (r: string)
    ensures |r| > 0
    ensures forall i :: 0 <= i < |r| ==> '0' <= r[i] <= '9'
    decreases n
  {
    if n < 10 then [DigitChar(n)] else NatToString(n / 10) + [DigitChar(n % 10)]
  }

  function IntToString(n: int): (r: string)
    ensures |r| > 0
  {
    if n < 0 then "-" + NatToString(-n) else NatToString(n)
  }

  function Join(parts: seq<string>, sep: string): string
  {
    if |parts| == 0 then ""
    else if |parts| == 1 then parts[0]
    else parts[0] + sep + Join(parts[1..], sep)
  }

  /** `String(v)`, also what a template literal `${v}` and `new Error(v)` produce.
      Array elements that are null or undefined render as empty strings. */
  function ToStr(v: Value): string
    decreases v
  {
    match v
    case Undefined => "undefined"
    case Null => "null"
    case Bool(b) => if b then "true" else "false"
    case Num(n) => IntToString(n)
    case Str(s) => s
    case Arr(items) =>
      Join(seq(|items|, i requires 0 <= i < |items| =>
             if items[i].Null? || items[i].Undefined? then "" else ToStr(items[i])), ",")
    case Obj(_) => "[object Object]"
  }

  /** The message V8 gives when a property of null or undefined is read. */
  function NullPropertyError(v: Value, key: string): (t: Thrown)
    requires v.Null? || v.Undefined?
  {
    Raised(JsError("TypeError", "Cannot read properties of " + ToStr(v) + " (reading '" + key + "')"))
  }

  /** `v?.key`: optional chaining never throws; a missing property is undefined.
      Only plain objects carry the named properties this model reads. */
  function Get(v: Value, key: string): Value
  {
    if v.Obj? && key in v.fields then v.fields[key] else Undefined
  }

  /** `v.key`: throws a TypeError on null and undefined, otherwise as `v?.key`. */
  function Prop(v: Value, key: string): Result<Value, Thrown>
  {
    if v.Null? || v.Undefined? then Failure(NullPropertyError(v, key)) else Success(Get(v, key))
  }

  /** `v[0]`: the first element of an array, the first character of a string,
      the property "0" of an object; a TypeError on null and undefined. */
  function Index0(v: Value): (r: Result<Value, Thrown>)
    ensures r.Failure? <==> v.Null? || v.Undefined?
    ensures v.Arr? && |v.items| > 0 ==> r == Success(v.items[0])
  {
    match v
    case Undefined => Failure(NullPropertyError(v, "0"))
    case Null => Failure(NullPropertyError(v, "0"))
    case Arr(items) => Success(if |items| > 0 then items[0] else Undefined)
    case Str(s) => Success(if |s| > 0 then Str([s[0]]) else Undefined)
    case Obj(fields) => Success(if "0" in fields then fields["0"] else Undefined)
    case _ => Success(Undefined)
  }

  /** `new Error(message)`. */
  function ErrorOf(message: Value): Thrown
  {
    Raised(JsError("Error", ToStr(message)))
  }

  /** `error instanceof Error ? error : new Error(String(error))` */
  function AsError(t: Thrown): (e: Thrown)
    ensures e.Raised?
    ensures t.Raised? ==> e == t
  {
    match t
    case Raised(_) => t
    case RaisedValue(v) => ErrorOf(Str(ToStr(v)))
  }

  predicate OccursAt(s: string, pat: string, i: int)
  {
    0 <= i <= |s| - |pat| && s[i..i + |pat|] == pat
  }

  /** `s.includes(pat)` */
  predicate Contains(s: string, pat: string)
  {
    exists i :: 0 <= i <= |s| - |pat| && OccursAt(s, pat, i)
  }
}

=== FILE: query_builder.dfy ===
/** The query builder both adapters share (the two files carry identical copies):
    select/filters/order/limit become an ordered list of PostgREST parameters
    `key=op.value`, serialised by URLSearchParams and appended after `?` only
    when there is at least one parameter. */
module QueryBuilder {
  import opened JsValues

  /** One `params.append(name, value)`. */
  datatype Param = Param(name: string, value: string)

  /** The `options` of select: absent fields are Undefined. `filters` is the list
      Object.entries(options.filters) yields (empty when there are no filters). */
  datatype SelectOptions = SelectOptions(select: Value, filters: seq<(string, Value)>, order: Value, limit: Value)

  /** An operator filter `{operator, value}`: a plain object with a truthy `operator`. */
  predicate IsOperatorFilter(v: Value) {
    v.Obj? && Truthy(Get(v, "operator"))
  }

  /** The parameter value for one filter entry: `<operator>.<value>` or `eq.<value>`. */
  function FilterText(v: Value): string
  {
    if IsOperatorFilter(v) then ToStr(Get(v, "operator")) + "." + ToStr(Get(v, "value"))
    else "eq." + ToStr(v)
  }

  /** One filter entry of select. `typeof value === 'object'` also holds for null,
      and reading `null.operator` throws a TypeError. */
  function FilterParam(key: string, v: Value): Result<Param, Thrown>
  {
    if v.Null? then Failure(NullPropertyError(v, "operator")) else Success(Param(key, FilterText(v)))
  }

  /** The filter parameters of select, in entry order; the first null value throws. */
  function FilterParams(entries: seq<(string, Value)>): Result<seq<Param>, Thrown>
  {
    if |entries| == 0 then Success([])
    else
      var last := entries[|entries| - 1];
      match FilterParams(entries[..|entries| - 1])
      case Failure(t) => Failure(t)
      case Success(ps) =>
        match FilterParam(last.0, last.1)
        case Failure(t) => Failure(t)
        case Success(p) => Success(ps + [p])
  }

  /** `if (options.x) params.append('x', options.x)` */
  function OptionalParam(name: string, v: Value): seq<Param>
  {
    if Truthy(v) then [Param(name, ToStr(v))] else []
  }

  /** The parameters of select: select, then the filters, then order, then limit. */
  function SelectParams(opts: SelectOptions): Result<seq<Param>, Thrown>
  {
    match FilterParams(opts.filters)
    case Failure(t) => Failure(t)
    case Success(fs) =>
      Success(OptionalParam("select", opts.select) + fs +
              OptionalParam("order", opts.order) + OptionalParam("limit", opts.limit))
  }

  /** The parameters of update and delete: every filter is an equality. */
  function EqParams(filters: seq<(string, Value)>): seq<Param>
  {
    if |filters| == 0 then []
    else
      var last := filters[|filters| - 1];
      EqParams(filters[..|filters| - 1]) + [Param(last.0, "eq." + ToStr(last.1))]
  }

  /** `name=value` with both parts encoded. */
  function EncodeParam(p: Param, enc: string -> string): string
  {
    enc(p.name) + "=" + enc(p.value)
  }

  function EncodedParams(ps: seq<Param>, enc: string -> string): seq<string>
  {
    seq(|ps|, i requires 0 <= i < |ps| => EncodeParam(ps[i], enc))
  }

  /** `params.toString()` */
  function Serialize(ps: seq<Param>, enc: string -> string): string
  {
    Join(EncodedParams(ps, enc), "&")
  }

  /** `if (params.toString()) url += '?' + params.toString()` */
  function WithQuery(path: string, ps: seq<Param>, enc: string -> string): string
  {
    var q := Serialize(ps, enc);
    if q != "" then path + "?" + q else path
  }

  /** `s.split(c)` */
  function SplitOn(s: string, c: char): (parts: seq<string>)
    ensures |parts| >= 1
  {
    if |s| == 0 then [""]
    else
      var rest := SplitOn(s[1..], c);
      if s[0] == c then [""] + rest else [[s[0]] + rest[0]] + rest[1..]
  }

  /** The encoder never emits the separators `&` and `=` (form encoding escapes them). */
  ghost predicate SeparatorFree(enc: string -> string) {
    forall x :: '&' !in enc(x) && '=' !in enc(x)
  }

  ghost predicate Injective(enc: string -> string) {
    forall x, y :: enc(x) == enc(y) ==> x == y
  }

  // ---------------------------------------------------------------------------
  // The loops of the source

  /** The select builder as the source runs it: append select, then each filter
      entry in turn (stopping at the first that throws), then order and limit. */
  method BuildSelectParams(opts: SelectOptions) returns (r: Result<seq<Param>, Thrown>)
    ensures r == SelectParams(opts)
  {
    var params := OptionalParam("select", opts.select);
    var i := 0;
    while i < |opts.filters|
      invariant 0 <= i <= |opts.filters|
      invariant FilterParams(opts.filters[..i]).Success?
      invariant params == OptionalParam("select", opts.select) + FilterParams(opts.filters[..i]).value
    {
      var (key, v) := opts.filters[i];
      assert opts.filters[..i + 1][..i] == opts.filters[..i];
      var p := FilterParam(key, v);
      if p.Failure? {
        FilterParamsPrefixFailure(opts.filters, i + 1);
        return Failure(p.error);
      }
      params := params + [p.value];
      i := i + 1;
    }
    assert opts.filters[..i] == opts.filters;
    params := params + OptionalParam("order", opts.order);
    params := params + OptionalParam("limit", opts.limit);
    r := Success(params);
  }

  /** The update/delete builder: one `eq.` parameter per filter entry, in order. */
  method BuildEqParams(filters: seq<(string, Value)>) returns (params: seq<Param>)
    ensures params == EqParams(filters)
  {
    params := [];
    var i := 0;
    while i < |filters|
      invariant 0 <= i <= |filters|
      invariant params == EqParams(filters[..i])
    {
      var (key, v) := filters[i];
      assert filters[..i + 1][..i] == filters[..i];
      params := params + [Param(key, "eq." + ToStr(v))];
      i := i + 1;
    }
    assert filters[..i] == filters;
  }

  // ---------------------------------------------------------------------------
  // Properties of the builders

  /** Once a prefix of the entries throws, the whole list throws the same. */
  lemma {:induction false} FilterParamsPrefixFailure(entries: seq<(string, Value)>, n: nat)
    requires n <= |entries|
    requires FilterParams(entries[..n]).Failure?
    ensures FilterParams(entries) == FilterParams(entries[..n])
    decreases |entries| - n
  {
    if n < |entries| {
      assert entries[..n + 1][..n] == entries[..n];
      FilterParamsPrefixFailure(entries, n + 1);
    } else {
      assert entries[..n] == entries;
    }
  }

  /** The filters of select: they throw exactly when some value is null, and
      otherwise give one parameter per entry, in entry order. */
  lemma {:induction false} FilterParamsAt(entries: seq<(string, Value)>)
    ensures FilterParams(entries).Success? <==> forall i :: 0 <= i < |entries| ==> !entries[i].1.Null?
    ensures FilterParams(entries).Failure? ==> FilterParams(entries).error == NullPropertyError(Null, "operator")
    ensures FilterParams(entries).Success? ==>
              |FilterParams(entries).value| == |entries| &&
              forall i :: 0 <= i < |entries| ==>
                FilterParams(entries).value[i] == Param(entries[i].0, FilterText(entries[i].1))
  {
    if |entries| > 0 {
      var init := entries[..|entries| - 1];
      FilterParamsAt(init);
      assert forall i :: 0 <= i < |init| ==> init[i] == entries[i];
    }
  }

  /** The order of the select parameters: `select` first when truthy, then one
      parameter per filter in entry order (`key=eq.<value>` for a literal,
      `key=<operator>.<value>` for an operator object), then `order`, then `limit`;
      a falsy order or limit (such as 0) is omitted. */
  lemma SelectParamsOrder(opts: SelectOptions)
    ensures SelectParams(opts).Success? <==> forall i :: 0 <= i < |opts.filters| ==> !opts.filters[i].1.Null?
    ensures SelectParams(opts).Success? ==>
              var ps := SelectParams(opts).value;
              var s := if Truthy(opts.select) then 1 else 0;
              var n := |opts.filters|;
              && |ps| == s + n + (if Truthy(opts.order) then 1 else 0) + (if Truthy(opts.limit) then 1 else 0)
              && (Truthy(opts.select) ==> ps[0] == Param("select", ToStr(opts.select)))
              && (forall i :: 0 <= i < n ==> ps[s + i] == Param(opts.filters[i].0, FilterText(opts.filters[i].1)))
              && (Truthy(opts.order) ==> ps[s + n] == Param("order", ToStr(opts.order)))
              && (Truthy(opts.limit) ==> ps[|ps| - 1] == Param("limit", ToStr(opts.limit)))
  {
    FilterParamsAt(opts.filters);
    if SelectParams(opts).Success? {
      var head, fs := OptionalParam("select", opts.select), FilterParams(opts.filters).value;
      var tail := OptionalParam("order", opts.order) + OptionalParam("limit", opts.limit);
      assert SelectParams(opts).value == head + fs + tail;
    }
  }

  /** A literal filter value (anything but null or an operator object) becomes `eq.<value>`;
      an operator object uses its operator verbatim. */
  lemma FilterTextCases(v: Value)
    ensures !IsOperatorFilter(v) ==> FilterText(v) == "eq." + ToStr(v)
    ensures v.Obj? && "operator" in v.fields && Truthy(v.fields["operator"]) ==>
              FilterText(v) == ToStr(v.fields["operator"]) + "." + ToStr(Get(v, "value"))
  {
  }

  /** update and delete: one `key=eq.<value>` per filter entry, in entry order. */
  lemma {:induction false} EqParamsAt(filters: seq<(string, Value)>)
    ensures |EqParams(filters)| == |filters|
    ensures forall i :: 0 <= i < |filters| ==> EqParams(filters)[i] == Param(filters[i].0, "eq." + ToStr(filters[i].1))
  {
    if |filters| > 0 {
      var init := filters[..|filters| - 1];
      EqParamsAt(init);
      assert forall i :: 0 <= i < |init| ==> init[i] == filters[i];
    }
  }

  /** On filters holding only literal values, update/delete and select build the
      same filter parameters. */
  lemma {:induction false} EqParamsAgreeWithSelect(filters: seq<(string, Value)>)
    requires forall i :: 0 <= i < |filters| ==> !filters[i].1.Null? && !IsOperatorFilter(filters[i].1)
    ensures FilterParams(filters) == Success(EqParams(filters))
  {
    if |filters| > 0 {
      var init := filters[..|filters| - 1];
      assert forall i :: 0 <= i < |init| ==> init[i] == filters[i];
      EqParamsAgreeWithSelect(init);
    }
  }

  /** The serialised query is empty exactly when there are no parameters, so `?`
      is appended exactly when at least one parameter was built. */
  lemma SerializeEmptyIff(ps: seq<Param>, enc: string -> string)
    ensures Serialize(ps, enc) == "" <==> ps == []
    ensures WithQuery("", ps, enc) == "" <==> ps == []
  {
    if ps != [] {
      var parts := EncodedParams(ps, enc);
      assert parts[0] == enc(ps[0].name) + "=" + enc(ps[0].value);
      assert |parts[0]| > 0;
      assert |Join(parts, "&")| >= |parts[0]|;
    }
  }

  lemma {:induction false} SplitNoSeparator(a: string, c: char)
    requires c !in a
    ensures SplitOn(a, c) == [a]
  {
    if |a| > 0 {
      SplitNoSeparator(a[1..], c);
      assert [a[0]] + a[1..] == a;
    }
  }

  lemma {:induction false} SplitAfterFirst(a: string, b: string, c: char)
    requires c !in a
    ensures SplitOn(a + [c] + b, c) == [a] + SplitOn(b, c)
  {
    var s := a + [c] + b;
    if |a| == 0 {
      assert s[1..] == b;
    } else {
      assert s[1..] == a[1..] + [c] + b;
      SplitAfterFirst(a[1..], b, c);
      assert [a[0]] + a[1..] == a;
    }
  }

  /** Splitting a join on its separator gives the parts back when no part contains it. */
  lemma {:induction false} SplitJoin(parts: seq<string>, c: char)
    requires |parts| >= 1
    requires forall i :: 0 <= i < |parts| ==> c !in parts[i]
    ensures SplitOn(Join(parts, [c]), c) == parts
  {
    if |parts| == 1 {
      SplitNoSeparator(parts[0], c);
    } else {
      SplitJoin(parts[1..], c);
      SplitAfterFirst(parts[0], Join(parts[1..], [c]), c);
    }
  }

  lemma SeparatorPosition(a: string, c: char, rest: string)
    requires c !in a
    ensures forall k :: 0 <= k < |a| ==> (a + [c] + rest)[k] != c
    ensures (a + [c] + rest)[|a|] == c
  {
  }

  /** `a=b` splits back into `a` and `b` when `a` holds no `=`. */
  lemma SeparatedEqual(a: string, b: string, a': string, b': string, c: char)
    requires c !in a && c !in a'
    requires a + [c] + b == a' + [c] + b'
    ensures a == a' && b == b'
  {
    var s := a + [c] + b;
    SeparatorPosition(a, c, b);
    SeparatorPosition(a', c, b');
    assert |a| == |a'|;
    assert a == s[..|a|];
    assert a' == (a' + [c] + b')[..|a'|];
    assert b == s[|a| + 1..];
    assert b' == (a' + [c] + b')[|a'| + 1..];
  }

  /** The query string lists the encoded parameters in order: splitting it on `&`
      gives back each `name=value` piece. */
  lemma QueryPieces(ps: seq<Param>, enc: string -> string)
    requires SeparatorFree(enc)
    requires ps != []
    ensures SplitOn(Serialize(ps, enc), '&') == EncodedParams(ps, enc)
  {
    var parts := EncodedParams(ps, enc);
    forall i | 0 <= i < |parts| ensures '&' !in parts[i] {
      assert parts[i] == enc(ps[i].name) + "=" + enc(ps[i].value);
    }
    SplitJoin(parts, '&');
  }

  /** With an injective, separator-free encoder, distinct parameter lists give
      distinct query strings: the query determines every name, value and their order. */
  lemma QueryInjective(ps1: seq<Param>, ps2: seq<Param>, enc: string -> string)
    requires SeparatorFree(enc) && Injective(enc)
    requires Serialize(ps1, enc) == Serialize(ps2, enc)
    ensures ps1 == ps2
  {
    SerializeEmptyIff(ps1, enc);
    SerializeEmptyIff(ps2, enc);
    if ps1 != [] {
      QueryPieces(ps1, enc);
      QueryPieces(ps2, enc);
      var e1, e2 := EncodedParams(ps1, enc), EncodedParams(ps2, enc);
      assert e1 == e2;
      forall i | 0 <= i < |ps1| ensures ps1[i] == ps2[i] {
        assert e1[i] == e2[i];
        SeparatedEqual(enc(ps1[i].name), enc(ps1[i].value), enc(ps2[i].name), enc(ps2[i].value), '=');
      }
    }
  }

  /** Every filter entry of a successful select appears in the query string as the
      piece `enc(key)=enc(eq.<value>)` (or `enc(key)=enc(<operator>.<value>)`),
      at the position that follows the select parameter. */
  lemma QueryCarriesFilter(opts: SelectOptions, enc: string -> string, i: nat)
    requires SeparatorFree(enc)
    requires SelectParams(opts).Success?
    requires i < |opts.filters|
    ensures var pieces := SplitOn(Serialize(SelectParams(opts).value, enc), '&');
            var s := if Truthy(opts.select) then 1 else 0;
            s + i < |pieces| &&
            pieces[s + i] == enc(opts.filters[i].0) + "=" + enc(FilterText(opts.filters[i].1))
  {
    SelectParamsOrder(opts);
    QueryPieces(SelectParams(opts).value, enc);
  }
}

=== FILE: session_store.dfy ===
/** The session store both adapters keep in the browser's localStorage: the whole
    session serialised under one key and, for convenience, the bare access token
    under a second key. The two adapters differ only in the key names. */
module SessionStore {
  import opened JsValues

  datatype SessionKeys = SessionKeys(session: string, token: string)

  const SupabaseKeys := SessionKeys("supabase_session", "supabase_token")
  const ForgeKeys := SessionKeys("forge_session", "forge_token")

  /** window.localStorage: a string-to-string map updated in place. */
  class LocalStorage {
    var items: map<string, string>

    constructor (initial: map<string, string>)
      ensures items == initial
    {
      items := initial;
    }

    /** localStorage.setItem */
    method SetItem(key: string, value: string)
      modifies this
      ensures items == old(items)[key := value]
    {
      items := items[key := value];
    }

    /** localStorage.removeItem; removing an absent key is a no-op. */
    method RemoveItem(key: string)
      modifies this
      ensures items == old(items) - {key}
    {
      items := items - {key};
    }
  }

  /** getStoredSession: null when the key is absent or holds the empty string,
      otherwise JSON.parse of the stored text, which throws a SyntaxError on a
      corrupt value (the throw is not caught here). */
  function StoredSession(items: map<string, string>, keys: SessionKeys, p: Platform): (r: Result<Value, Thrown>)
    // an absent key and an empty string both read as null
    ensures keys.session !in items || items[keys.session] == "" ==> r == Success(Null)
    // any other stored text is JSON.parse'd: its value, or the SyntaxError that escapes
    ensures keys.session in items && items[keys.session] != "" && p.parse(items[keys.session]).Success? ==>
              r == Success(p.parse(items[keys.session]).value)
    ensures keys.session in items && items[keys.session] != "" && p.parse(items[keys.session]).Failure? ==>
              r == Failure(Raised(JsError("SyntaxError", p.parse(items[keys.session]).error)))
    ensures r.Failure? ==> r.error.Raised? && r.error.err.name == "SyntaxError"
  {
    if keys.session !in items || items[keys.session] == "" then Success(Null)
    else
      match p.parse(items[keys.session])
      case Success(v) => Success(v)
      case Failure(msg) => Failure(Raised(JsError("SyntaxError", msg)))
  }

  /** `session && session.accessToken`, when that is truthy. */
  function SessionToken(session: Value): Option<Value>
  {
    if Truthy(session) && Truthy(Get(session, "accessToken")) then Some(Get(session, "accessToken")) else None
  }

  /** The storage contents after storeSession(session). */
  function AfterStore(items: map<string, string>, keys: SessionKeys, p: Platform, session: Value): (r: map<string, string>)
    requires keys.session != keys.token
    // no key other than the two session keys changes
    ensures forall k :: k != keys.session && k != keys.token ==> (k in r <==> k in items)
    ensures forall k :: k in items && k != keys.session && k != keys.token ==> r[k] == items[k]
    // a truthy session is written under the session key
    ensures Truthy(session) ==> keys.session in r && r[keys.session] == p.stringify(session)
    // the token key is written exactly when the session carries a truthy accessToken
    ensures SessionToken(session).Some? ==> keys.token in r && r[keys.token] == ToStr(SessionToken(session).value)
    ensures Truthy(session) && SessionToken(session).None? ==>
              (keys.token in r <==> keys.token in items) &&
              (keys.token in items ==> r[keys.token] == items[keys.token])
    // a falsy session (null included) removes both keys
    ensures !Truthy(session) ==> keys.session !in r && keys.token !in r
  {
    if Truthy(session) then
      var withSession := items[keys.session := p.stringify(session)];
      var token := Get(session, "accessToken");
      if Truthy(token) then withSession[keys.token := ToStr(token)] else withSession
    else
      items - {keys.session, keys.token}
  }

  /** storeSession(session) */
  method StoreSession(storage: LocalStorage, keys: SessionKeys, p: Platform, session: Value)
    requires keys.session != keys.token
    modifies storage
    ensures storage.items == AfterStore(old(storage.items), keys, p, session)
  {
    if Truthy(session) {
      storage.SetItem(keys.session, p.stringify(session));
      var token := Get(session, "accessToken");
      if Truthy(token) {
        storage.SetItem(keys.token, ToStr(token));
      }
    } else {
      storage.RemoveItem(keys.session);
      storage.RemoveItem(keys.token);
    }
  }

  /** clearSession: () => storeSession(null) */
  method ClearSession(storage: LocalStorage, keys: SessionKeys, p: Platform)
    requires keys.session != keys.token
    modifies storage
    ensures storage.items == old(storage.items) - {keys.session, keys.token}
  {
    StoreSession(storage, keys, p, Null);
  }

  /** getStoredSession answers null exactly when nothing usable is stored: the key
      is absent, holds the empty string, or holds the JSON text of null. */
  lemma StoredSessionNullIff(items: map<string, string>, keys: SessionKeys, p: Platform)
    ensures StoredSession(items, keys, p) == Success(Null) <==>
              keys.session !in items || items[keys.session] == "" ||
              p.parse(items[keys.session]) == Success(Null)
  {
  }

  /** What storeSession writes, getStoredSession reads back, provided JSON.parse
      inverts JSON.stringify on that session. */
  lemma StoreThenGet(items: map<string, string>, keys: SessionKeys, p: Platform, session: Value)
    requires keys.session != keys.token
    requires Truthy(session)
    requires p.stringify(session) != ""
    requires p.parse(p.stringify(session)) == Success(session)
    ensures StoredSession(AfterStore(items, keys, p, session), keys, p) == Success(session)
  {
  }

  /** After clearSession, getStoredSession answers null and the token key is gone. */
  lemma ClearThenGet(items: map<string, string>, keys: SessionKeys, p: Platform)
    requires keys.session != keys.token
    ensures StoredSession(AfterStore(items, keys, p, Null), keys, p) == Success(Null)
    ensures keys.token !in AfterStore(items, keys, p, Null)
  {
  }
}

=== FILE: supabase_api.dfy ===
/** The PostgREST variant of the data-access adapter (js/supabase-api.js): the
    request helper, the four database verbs and the storage client. Each verb is a
    function of the configuration, the localStorage contents, its arguments and
    what fetch hands back; it returns the request it sent and how its promise settled. */
module SupabaseApi {
  import opened JsValues
  import opened Http
  import opened QueryBuilder
  import opened SessionStore

  /** SUPABASE_URL, SUPABASE_ANON_KEY and window.SUPABASE_SERVICE_KEY ("" when unset). */
  datatype Config = Config(url: string, anonKey: string, serviceKey: string)

  // ---------------------------------------------------------------------------
  // supabaseRequest

  /** The key used when no session token exists: the service key if set, else the anon key. */
  function AuthKey(cfg: Config): string
  {
    if cfg.serviceKey != "" then cfg.serviceKey else cfg.anonKey
  }

  /** The headers supabaseRequest sends: defaults, then the caller's headers over
      them, then an Authorization the caller cannot override. */
  function RequestHeaders(cfg: Config, callerHeaders: map<string, string>, session: Value): (h: map<string, string>)
    ensures h.Keys == callerHeaders.Keys + {"Content-Type", "apikey", "Prefer", "Authorization"}
    ensures forall k :: k in callerHeaders && k != "Authorization" ==> h[k] == callerHeaders[k]
    ensures "Content-Type" !in callerHeaders ==> h["Content-Type"] == "application/json"
    ensures "apikey" !in callerHeaders ==> h["apikey"] == cfg.anonKey
    ensures "Prefer" !in callerHeaders ==> h["Prefer"] == "return=representation"
    ensures SessionToken(session).Some? ==> h["Authorization"] == "Bearer " + ToStr(SessionToken(session).value)
    ensures SessionToken(session).None? && cfg.serviceKey != "" ==> h["Authorization"] == "Bearer " + cfg.serviceKey
    ensures SessionToken(session).None? && cfg.serviceKey == "" ==> h["Authorization"] == "Bearer " + cfg.anonKey
  {
    var defaults := map["Content-Type" := "application/json", "apikey" := cfg.anonKey, "Prefer" := "return=representation"];
    var merged := defaults + callerHeaders;
    var credential := match SessionToken(session) case Some(t) => ToStr(t) case None => AuthKey(cfg);
    merged["Authorization" := "Bearer " + credential]
  }

  /** `await response.json().catch(() => ({ message: 'Request failed' }))` */
  function ErrorBody(r: Response, p: Platform): Value
  {
    match p.parse(r.text)
    case Success(v) => v
    case Failure(_) => Obj(map["message" := Str("Request failed")])
  }

  /** What a non-ok response throws: an Error whose message is the body's
      `message`, else its `hint`, else `Request failed: <status>`. */
  function FailureThrown(r: Response, p: Platform): (t: Thrown)
    ensures p.parse(r.text).Failure? ==> t == Raised(JsError("Error", "Request failed"))
    ensures var body := ErrorBody(r, p);
            body.Null? || body.Undefined? ==> t == NullPropertyError(body, "message")
    ensures var body := ErrorBody(r, p);
            !body.Null? && !body.Undefined? ==>
              t.Raised? && t.err.name == "Error" &&
              t.err.message == (if Truthy(Get(body, "message")) then ToStr(Get(body, "message"))
                                else if Truthy(Get(body, "hint")) then ToStr(Get(body, "hint"))
                                else "Request failed: " + IntToString(r.status))
  {
    var body := ErrorBody(r, p);
    match Prop(body, "message")
    case Failure(t) => t
    case Success(m) => ErrorOf(Or(m, Or(Get(body, "hint"), Str("Request failed: " + IntToString(r.status)))))
  }

  /** What an ok response yields: null for 204, `content-length: 0` or an empty
      body, otherwise the parsed body (a SyntaxError when it is not JSON). */
  function SuccessValue(r: Response, p: Platform): (v: Result<Value, Thrown>)
    ensures r.status == 204 || r.contentLength == Some("0") || r.text == "" ==> v == Success(Null)
    ensures !(r.status == 204 || r.contentLength == Some("0") || r.text == "") && p.parse(r.text).Success? ==>
              v == Success(p.parse(r.text).value)
    ensures !(r.status == 204 || r.contentLength == Some("0") || r.text == "") && p.parse(r.text).Failure? ==>
              v == Failure(Raised(JsError("SyntaxError", p.parse(r.text).error)))
    ensures v.Failure? ==> v.error.Raised? && v.error.err.name == "SyntaxError"
  {
    if r.status == 204 || r.contentLength == Some("0") || r.text == "" then Success(Null)
    else
      match p.parse(r.text)
      case Success(x) => Success(x)
      case Failure(m) => Failure(Raised(JsError("SyntaxError", m)))
  }

  function Settle(fetched: FetchOutcome, p: Platform): Result<Value, Thrown>
  {
    match fetched
    case NetworkFailure(t) => Failure(t)
    case Responded(r) => if r.Ok() then SuccessValue(r, p) else Failure(FailureThrown(r, p))
  }

  /** What `await supabaseRequest(...)` yields or throws, whatever the endpoint:
      the SyntaxError of a corrupt stored session, else what the response settles to. */
  function Awaited(p: Platform, items: map<string, string>, fetched: FetchOutcome): Result<Value, Thrown>
  {
    match StoredSession(items, SupabaseKeys, p)
    case Failure(t) => Failure(t)
    case Success(_) => Settle(fetched, p)
  }

  /** supabaseRequest(endpoint, options). Reading the stored session happens first;
      a corrupt one throws before anything is sent. */
  function Request(cfg: Config, p: Platform, items: map<string, string>, endpoint: string,
                   opts: RequestOptions, fetched: FetchOutcome): (ex: Exchange)
    ensures ex.sent.Some? <==> StoredSession(items, SupabaseKeys, p).Success?
    ensures ex.sent.None? ==> ex.result == Failure(StoredSession(items, SupabaseKeys, p).error)
    ensures ex.sent.Some? ==>
              ex.sent.value == HttpRequest(opts.verb, cfg.url + "/rest/v1" + endpoint,
                                           RequestHeaders(cfg, opts.headers, StoredSession(items, SupabaseKeys, p).value),
                                           opts.body)
    ensures ex.sent.Some? && fetched.Responded? && !fetched.response.Ok() ==>
              ex.result == Failure(FailureThrown(fetched.response, p))
    ensures ex.sent.Some? && fetched.Responded? && fetched.response.Ok() ==>
              ex.result == SuccessValue(fetched.response, p)
    ensures ex.sent.Some? && fetched.NetworkFailure? ==> ex.result == Failure(fetched.thrown)
    ensures ex.result == Awaited(p, items, fetched)
  {
    match StoredSession(items, SupabaseKeys, p)
    case Failure(t) => Exchange(None, Failure(t))
    case Success(session) =>
      var headers := RequestHeaders(cfg, opts.headers, session);
      Exchange(Some(HttpRequest(opts.verb, cfg.url + "/rest/v1" + endpoint, headers, opts.body)), Settle(fetched, p))
  }

  // ---------------------------------------------------------------------------
  // supabaseDB

  /** supabaseDB.select(table, options). Building the parameters happens before the
      try block, so a null filter value rejects the promise instead of returning
      an envelope. */
  function Select(cfg: Config, p: Platform, items: map<string, string>, table: string,
                  opts: SelectOptions, fetched: FetchOutcome): (c: Call<Envelope>)
    ensures c.outcome.Rejected? <==> SelectParams(opts).Failure?
    ensures c.outcome.Rejected? ==> c.sent.None? && c.outcome.thrown == NullPropertyError(Null, "operator")
    // with the parameters built, the request goes out unless the stored session is corrupt
    ensures SelectParams(opts).Success? ==> (c.sent.Some? <==> StoredSession(items, SupabaseKeys, p).Success?)
    ensures c.sent.Some? ==>
              c.sent.value == HttpRequest("GET", cfg.url + "/rest/v1" + WithQuery("/" + table, SelectParams(opts).value, p.formEncode),
                                          RequestHeaders(cfg, map[], StoredSession(items, SupabaseKeys, p).value), NoBody)
    // `{ data: data || [], error: null }`, or `{ data: null, error }`
    ensures c.outcome.Resolved? && Awaited(p, items, fetched).Success? ==>
              c.outcome.envelope == Envelope(Or(Awaited(p, items, fetched).value, Arr([])), None)
    ensures c.outcome.Resolved? && Awaited(p, items, fetched).Failure? ==>
              c.outcome.envelope == Envelope(Null, Some(Awaited(p, items, fetched).error))
    ensures c.outcome.Resolved? && c.outcome.envelope.error.None? ==> Truthy(c.outcome.envelope.data)
  {
    FilterParamsAt(opts.filters);
    match SelectParams(opts)
    case Failure(t) => Call(None, Rejected(t))
    case Success(ps) =>
      var ex := Request(cfg, p, items, WithQuery("/" + table, ps, p.formEncode), RequestOptions("GET", NoBody, map[]), fetched);
      Call(ex.sent, Resolved(
        match ex.result
        case Success(data) => Envelope(Or(data, Arr([])), None)
        case Failure(t) => Caught(t)))
  }

  /** `Array.isArray(records) ? records : [records]` */
  function AsArray(records: Value): (a: Value)
    ensures a.Arr?
    ensures records.Arr? ==> a == records
    ensures !records.Arr? ==> a == Arr([records])
  {
    if records.Arr? then records else Arr([records])
  }

  /** `Array.isArray(records) ? data : (data && data[0] ? data[0] : data)` */
  function Unwrap(records: Value, data: Value): (r: Value)
    ensures records.Arr? ==> r == data
    ensures !records.Arr? && data.Arr? && |data.items| > 0 && Truthy(data.items[0]) ==> r == data.items[0]
    ensures !records.Arr? && (!Truthy(data) || data == Arr([])) ==> r == data
    // `data[0]` is an array's first element, a string's first character or an object's "0"
    ensures !records.Arr? && Truthy(data) && Truthy(Index0(data).value) ==> r == Index0(data).value
    ensures !records.Arr? && !(Truthy(data) && Truthy(Index0(data).value)) ==> r == data
    // a single record gets the data back or its first element, and only a truthy one
    ensures r == data || (Truthy(data) && Index0(data) == Success(r) && Truthy(r))
  {
    if records.Arr? then data
    else if Truthy(data) && Index0(data).Success? && Truthy(Index0(data).value) then Index0(data).value
    else data
  }

  function InsertOptions(p: Platform, records: Value): RequestOptions
  {
    RequestOptions("POST", JsonText(p.stringify(AsArray(records))), map[])
  }

  /** supabaseDB.insert(table, records): the records always travel as an array. */
  function Insert(cfg: Config, p: Platform, items: map<string, string>, table: string,
                  records: Value, fetched: FetchOutcome): (c: Call<Envelope>)
    ensures c.outcome.Resolved? && ErrorMeansNoData(c.outcome.envelope)
    ensures c.sent.Some? <==> StoredSession(items, SupabaseKeys, p).Success?
    ensures c.sent.Some? ==>
              c.sent.value == HttpRequest("POST", cfg.url + "/rest/v1/" + table,
                                          RequestHeaders(cfg, map[], StoredSession(items, SupabaseKeys, p).value),
                                          JsonText(p.stringify(AsArray(records))))
    ensures Awaited(p, items, fetched).Success? ==>
              c.outcome.envelope == Envelope(Unwrap(records, Awaited(p, items, fetched).value), None)
    ensures Awaited(p, items, fetched).Failure? ==>
              c.outcome.envelope == Envelope(Null, Some(Awaited(p, items, fetched).error))
  {
    var ex := Request(cfg, p, items, "/" + table, InsertOptions(p, records), fetched);
    assert "/rest/v1" + ("/" + table) == "/rest/v1/" + table;
    Call(ex.sent, Resolved(
      match ex.result
      case Success(data) => Envelope(Unwrap(records, data), None)
      case Failure(t) => Caught(t)))
  }

  /** supabaseDB.update(table, filters, updates) */
  function Update(cfg: Config, p: Platform, items: map<string, string>, table: string,
                  filters: seq<(string, Value)>, updates: Value, fetched: FetchOutcome): (c: Call<Envelope>)
    ensures c.outcome.Resolved? && ErrorMeansNoData(c.outcome.envelope)
    ensures c.sent.Some? <==> StoredSession(items, SupabaseKeys, p).Success?
    ensures c.sent.Some? ==>
              c.sent.value == HttpRequest("PATCH", cfg.url + "/rest/v1" + WithQuery("/" + table, EqParams(filters), p.formEncode),
                                          RequestHeaders(cfg, map[], StoredSession(items, SupabaseKeys, p).value),
                                          JsonText(p.stringify(updates)))
    ensures Awaited(p, items, fetched).Success? ==>
              c.outcome.envelope == Envelope(Awaited(p, items, fetched).value, None)
    ensures Awaited(p, items, fetched).Failure? ==>
              c.outcome.envelope == Envelope(Null, Some(Awaited(p, items, fetched).error))
  {
    var url := WithQuery("/" + table, EqParams(filters), p.formEncode);
    var ex := Request(cfg, p, items, url, RequestOptions("PATCH", JsonText(p.stringify(updates)), map[]), fetched);
    Call(ex.sent, Resolved(
      match ex.result
      case Success(data) => Envelope(data, None)
      case Failure(t) => Caught(t)))
  }

  /** supabaseDB.delete(table, filters): the body of a successful response is discarded. */
  function Delete(cfg: Config, p: Platform, items: map<string, string>, table: string,
                  filters: seq<(string, Value)>, fetched: FetchOutcome): (c: Call<Envelope>)
    ensures c.outcome.Resolved? && c.outcome.envelope.data == Null
    ensures c.sent.Some? <==> StoredSession(items, SupabaseKeys, p).Success?
    ensures c.sent.Some? ==>
              c.sent.value == HttpRequest("DELETE", cfg.url + "/rest/v1" + WithQuery("/" + table, EqParams(filters), p.formEncode),
                                          RequestHeaders(cfg, map[], StoredSession(items, SupabaseKeys, p).value), NoBody)
    ensures Awaited(p, items, fetched).Success? ==> c.outcome.envelope == Envelope(Null, None)
    ensures Awaited(p, items, fetched).Failure? ==>
              c.outcome.envelope == Envelope(Null, Some(Awaited(p, items, fetched).error))
  {
    var url := WithQuery("/" + table, EqParams(filters), p.formEncode);
    var ex := Request(cfg, p, items, url, RequestOptions("DELETE", NoBody, map[]), fetched);
    Call(ex.sent, Resolved(
      match ex.result
      case Success(_) => Envelope(Null, None)
      case Failure(t) => Caught(t)))
  }

  // ---------------------------------------------------------------------------
  // supabaseStorage

  /** supabaseStorage.getPublicUrl(bucket, fileName) */
  function GetPublicUrl(cfg: Config, p: Platform, bucket: string, fileName: string): string
  {
    cfg.url + "/storage/v1/object/public/" + bucket + "/" + p.encodeUriComponent(fileName)
  }

  /** The headers of an upload: the session token or else the anon key (never the
      service key), the anon key as apikey, the file's type, and upsert. */
  function UploadHeaders(cfg: Config, session: Value, file: FileBlob): (h: map<string, string>)
    ensures h.Keys == {"Authorization", "apikey", "Content-Type", "x-upsert"}
    ensures SessionToken(session).Some? ==> h["Authorization"] == "Bearer " + ToStr(SessionToken(session).value)
    ensures SessionToken(session).None? ==> h["Authorization"] == "Bearer " + cfg.anonKey
    ensures h["apikey"] == cfg.anonKey && h["x-upsert"] == "true"
    ensures h["Content-Type"] == if file.mimeType != "" then file.mimeType else "application/octet-stream"
  {
    // `session?.accessToken` is truthy exactly when SessionToken finds one
    var credential := match SessionToken(session) case Some(t) => ToStr(t) case None => cfg.anonKey;
    map["Authorization" := "Bearer " + credential,
        "apikey" := cfg.anonKey,
        "Content-Type" := if file.mimeType != "" then file.mimeType else "application/octet-stream",
        "x-upsert" := "true"]
  }

  /** The message of a failed upload: the JSON body's `message`, else its `error`,
      else "Upload failed"; "Upload failed with status N" for an empty body; the raw
      text for a body that is not JSON (or whose JSON is null). */
  function UploadFailureMessage(r: Response, p: Platform): (m: string)
    ensures r.text == "" ==> m == "Upload failed with status " + IntToString(r.status)
    ensures r.text != "" && p.parse(r.text).Failure? ==> m == r.text
    ensures r.text != "" && p.parse(r.text).Success? ==>
              var v := p.parse(r.text).value;
              m == (if v.Null? || v.Undefined? then r.text
                    else if Truthy(Get(v, "message")) then ToStr(Get(v, "message"))
                    else if Truthy(Get(v, "error")) then ToStr(Get(v, "error"))
                    else "Upload failed")
  {
    if r.text == "" then "Upload failed with status " + IntToString(r.status)
    else
      match p.parse(r.text)
      case Failure(_) => r.text
      case Success(v) =>
        // reading a property of null throws inside the inner try; its catch uses the text
        if v.Null? || v.Undefined? then r.text
        else ToStr(Or(Get(v, "message"), Or(Get(v, "error"), Str("Upload failed"))))
  }

  /** `result`: the parsed body of a successful upload, `{}` when empty or not JSON. */
  function UploadResultValue(r: Response, p: Platform): Value
  {
    if r.text == "" then Obj(map[])
    else match p.parse(r.text) case Success(v) => v case Failure(_) => Obj(map[])
  }

  /** The catch branch of upload: non-Error throws are wrapped in an Error. */
  function UploadFailed(t: Thrown): (e: UploadEnvelope)
    ensures e.data.None? && e.error.Some? && e.error.value.Raised?
  {
    UploadEnvelope(None, Some(AsError(t)))
  }

  /** What the try block of upload yields once the session is read and fetch has settled. */
  function UploadSettle(cfg: Config, p: Platform, bucket: string, fileName: string, fetched: FetchOutcome): (e: UploadEnvelope)
    ensures UploadErrorMeansNoData(e)
    ensures e.error.Some? ==> e.error.value.Raised?
    ensures fetched.NetworkFailure? ==> e == UploadFailed(fetched.thrown)
    ensures fetched.Responded? && !fetched.response.Ok() ==>
              e == UploadEnvelope(None, Some(Raised(JsError("Error", UploadFailureMessage(fetched.response, p)))))
    ensures fetched.Responded? && fetched.response.Ok() && !Contains(GetPublicUrl(cfg, p, bucket, fileName), "http") ==>
              e == UploadEnvelope(None, Some(Raised(JsError("Error", "Failed to generate valid public URL for uploaded file"))))
    // `result.Key` throws only when the parsed body is null
    ensures fetched.Responded? && fetched.response.Ok() && Contains(GetPublicUrl(cfg, p, bucket, fileName), "http") ==>
              (e.data.Some? <==> !UploadResultValue(fetched.response, p).Null? && !UploadResultValue(fetched.response, p).Undefined?)
    ensures e.data.Some? ==>
              var info := e.data.value;
              info.url == GetPublicUrl(cfg, p, bucket, fileName) && Contains(info.url, "http") &&
              info.key == Str(fileName) && info.path.Some?
  {
    match fetched
    case NetworkFailure(t) => UploadFailed(t)
    case Responded(r) =>
      if !r.Ok() then UploadFailed(ErrorOf(Str(UploadFailureMessage(r, p))))
      else
        var url := GetPublicUrl(cfg, p, bucket, fileName);
        if !Contains(url, "http") then UploadFailed(ErrorOf(Str("Failed to generate valid public URL for uploaded file")))
        else
          var result := UploadResultValue(r, p);
          match Prop(result, "Key")
          case Failure(t) => UploadFailed(t)
          case Success(k) =>
            UploadEnvelope(Some(UploadInfo(url, Str(fileName), Some(Or(k, Or(Get(result, "path"), Str(fileName)))))), None)
  }

  /** supabaseStorage.upload(bucket, fileName, file): never rejects; on success the
      URL is the public URL of the caller's file name. */
  function Upload(cfg: Config, p: Platform, items: map<string, string>, bucket: string, fileName: string,
                  file: FileBlob, fetched: FetchOutcome): (c: Call<UploadEnvelope>)
    ensures c.outcome.Resolved? && UploadErrorMeansNoData(c.outcome.envelope)
    ensures c.outcome.envelope.error.Some? ==> c.outcome.envelope.error.value.Raised?
    ensures c.outcome.envelope.data.Some? ==>
              var info := c.outcome.envelope.data.value;
              info.url == GetPublicUrl(cfg, p, bucket, fileName) && Contains(info.url, "http") &&
              info.key == Str(fileName) && info.path.Some?
    // a corrupt stored session throws inside the try: nothing is sent
    ensures StoredSession(items, SupabaseKeys, p).Failure? ==>
              c == Call(None, Resolved(UploadFailed(StoredSession(items, SupabaseKeys, p).error)))
    ensures StoredSession(items, SupabaseKeys, p).Success? ==>
              c.sent == Some(HttpRequest("POST", cfg.url + "/storage/v1/object/" + bucket + "/" + p.encodeUriComponent(fileName),
                                         UploadHeaders(cfg, StoredSession(items, SupabaseKeys, p).value, file), RawFile(file))) &&
              c.outcome == Resolved(UploadSettle(cfg, p, bucket, fileName, fetched))
  {
    match StoredSession(items, SupabaseKeys, p)
    case Failure(t) => Call(None, Resolved(UploadFailed(t)))
    case Success(session) =>
      var req := HttpRequest("POST", cfg.url + "/storage/v1/object/" + bucket + "/" + p.encodeUriComponent(fileName),
                             UploadHeaders(cfg, session, file), RawFile(file));
      Call(Some(req), Resolved(UploadSettle(cfg, p, bucket, fileName, fetched)))
  }

  // ---------------------------------------------------------------------------
  // Properties of the verbs

  /** A successful select never yields null data: an empty or null result becomes `[]`. */
  lemma SelectEmptyIsArray(cfg: Config, p: Platform, items: map<string, string>, table: string,
                           opts: SelectOptions, r: Response)
    requires SelectParams(opts).Success?
    requires StoredSession(items, SupabaseKeys, p).Success?
    requires r.Ok() && (r.status == 204 || r.text == "" || p.parse(r.text) == Success(Null))
    ensures Select(cfg, p, items, table, opts, Responded(r)).outcome == Resolved(Envelope(Arr([]), None))
  {
  }

  /** Insert mirrors the shape of its input: an array in gives whatever the
      provider returned, unchanged; a single record in gives the first row back. */
  lemma InsertMirrorsShape(cfg: Config, p: Platform, items: map<string, string>, table: string,
                           records: Value, r: Response)
    requires StoredSession(items, SupabaseKeys, p).Success?
    requires r.Ok() && SuccessValue(r, p).Success?
    ensures records.Arr? ==>
              Insert(cfg, p, items, table, records, Responded(r)).outcome == Resolved(Envelope(SuccessValue(r, p).value, None))
    ensures var d := SuccessValue(r, p).value;
            !records.Arr? && d.Arr? && |d.items| > 0 && Truthy(d.items[0]) ==>
              Insert(cfg, p, items, table, records, Responded(r)).outcome == Resolved(Envelope(d.items[0], None))
  {
  }

  /** A single record whose response has no usable first row gets the raw data back. */
  lemma InsertSingleWithoutRow(cfg: Config, p: Platform, items: map<string, string>, table: string,
                               records: Value, r: Response)
    requires !records.Arr?
    requires StoredSession(items, SupabaseKeys, p).Success?
    requires r.Ok() && SuccessValue(r, p).Success?
    requires var d := SuccessValue(r, p).value; !Truthy(d) || d == Arr([])
    ensures Insert(cfg, p, items, table, records, Responded(r)).outcome == Resolved(Envelope(SuccessValue(r, p).value, None))
  {
  }

  /** A non-ok response makes update and delete resolve with an error envelope
      carrying the derived message; e.g. `{ message: "X" }` gives `error.message == "X"`. */
  lemma FailedResponseIsError(cfg: Config, p: Platform, items: map<string, string>, table: string,
                              filters: seq<(string, Value)>, updates: Value, r: Response, msg: string)
    requires StoredSession(items, SupabaseKeys, p).Success?
    requires !r.Ok() && msg != ""
    requires p.parse(r.text) == Success(Obj(map["message" := Str(msg)]))
    ensures Update(cfg, p, items, table, filters, updates, Responded(r)).outcome
              == Resolved(Envelope(Null, Some(Raised(JsError("Error", msg)))))
    ensures Delete(cfg, p, items, table, filters, Responded(r)).outcome
              == Resolved(Envelope(Null, Some(Raised(JsError("Error", msg)))))
  {
  }

  /** A successful update or delete is never an error, however many rows matched. */
  lemma NoRowsMatchedIsNotAnError(cfg: Config, p: Platform, items: map<string, string>, table: string,
                                  filters: seq<(string, Value)>, updates: Value, r: Response)
    requires StoredSession(items, SupabaseKeys, p).Success?
    requires r.Ok() && SuccessValue(r, p) == Success(Arr([]))
    ensures Update(cfg, p, items, table, filters, updates, Responded(r)).outcome == Resolved(Envelope(Arr([]), None))
    ensures Delete(cfg, p, items, table, filters, Responded(r)).outcome == Resolved(Envelope(Null, None))
  {
  }

  /** With an injective encodeURIComponent, distinct file names in one bucket get
      distinct public URLs. */
  lemma PublicUrlInjective(cfg: Config, p: Platform, bucket: string, f1: string, f2: string)
    requires Injective(p.encodeUriComponent)
    requires GetPublicUrl(cfg, p, bucket, f1) == GetPublicUrl(cfg, p, bucket, f2)
    ensures f1 == f2
  {
    var prefix := cfg.url + "/storage/v1/object/public/" + bucket + "/";
    assert GetPublicUrl(cfg, p, bucket, f1)[|prefix|..] == p.encodeUriComponent(f1);
    assert GetPublicUrl(cfg, p, bucket, f2)[|prefix|..] == p.encodeUriComponent(f2);
  }

  /** The stored path prefers the response's `Key`, then its `path`, then the caller's
      name; an empty or non-JSON body leaves `result` as `{}`, so the path is the name. */
  lemma UploadPathPrecedence(cfg: Config, p: Platform, bucket: string, fileName: string, r: Response)
    requires r.Ok() && Contains(GetPublicUrl(cfg, p, bucket, fileName), "http")
    requires !UploadResultValue(r, p).Null? && !UploadResultValue(r, p).Undefined?
    ensures r.text == "" || p.parse(r.text).Failure? ==>
              UploadSettle(cfg, p, bucket, fileName, Responded(r)) ==
                UploadEnvelope(Some(UploadInfo(GetPublicUrl(cfg, p, bucket, fileName), Str(fileName), Some(Str(fileName)))), None)
    ensures var result := UploadResultValue(r, p);
            var e := UploadSettle(cfg, p, bucket, fileName, Responded(r));
            e.error.None? && e.data.Some? &&
            e.data.value.path == Some(if Truthy(Get(result, "Key")) then Get(result, "Key")
                                      else if Truthy(Get(result, "path")) then Get(result, "path")
                                      else Str(fileName))
  {
  }

  /** A base URL containing "http" rules out the invalid-URL error. */
  lemma HttpBaseUrlPassesCheck(cfg: Config, p: Platform, bucket: string, fileName: string)
    requires Contains(cfg.url, "http")
    ensures Contains(GetPublicUrl(cfg, p, bucket, fileName), "http")
  {
    var i :| 0 <= i <= |cfg.url| - 4 && OccursAt(cfg.url, "http", i);
    var u := GetPublicUrl(cfg, p, bucket, fileName);
    assert u[..|cfg.url|] == cfg.url;
    assert u[i..i + 4] == cfg.url[i..i + 4];
    assert OccursAt(u, "http", i);
  }
}
